=== FILE: README.md ===
# PDF gallery backend — a Dafny model of its access and query logic

The gallery backend stores PDF files with metadata records. Each record has:
- a title, a description and tags;
- a public/private flag;
- an owner (`uploadedBy`), a size and a stored path;
- a creation time.

Signed-in users upload, list, fetch, download and delete records. They also see statistics about their own uploads and can change their password.

This project models the decision logic of the two backend controllers as pure functions over immutable data, and proves what that logic promises.

The modules:
- **Types**: the records, users, statuses and request fields.
- **Text**: the JavaScript string operations the handlers use, with their laws. These are `split` with a one-character separator (empty pieces kept), `trim` (the ECMAScript whitespace set), `join`, and case-insensitive search.
- **Tags**: two parsers.
  - The upload's tag parser, `tags.split(',').map(trim)`, with the empty field giving `[]`.
  - The list's search-term parser, which also drops empty terms.
- **Query**: the database query document that `getPDFs` builds.
  - Assignment and object spread are modelled on an ordered list of keys, so the `$and`-versus-spread branch can be modelled as written.
  - An evaluator gives the document its meaning.
  - A proof shows that the meaning equals the declarative reading: a search clause AND a visibility clause.
- **Sorting**: the three list orders.
  - newest first, which is also the fallback for unknown values such as `size`;
  - oldest first;
  - by title, where a missing title sorts first.
  - An insertion sort that is proved to be sorted and a permutation of its input.
- **Collection**: the database operations the handlers call: `findById`, `find(query)`, insertion, removal, and the `$match` stage of the statistics.
- **PdfController**: `uploadPDF`, `getPDFs`, `getPDF`, `downloadPdf` and `deletePDF`.
- **UserController**: the statistics of `getProfile`, the profile reply, and `changePassword`.

Things a handler gets from outside are parameters of the model:
- the signed-in caller (`req.user._id`);
- the file multer stored (path and size);
- the identifier the database assigns;
- the creation time;
- the schema's validation of a new record (`accepts`);
- the password library (`hash`, `matches`) and its salt.

The collection is a sequence in the database's natural order, not a map. The order decides how equal sort keys come out of a list. Identifier uniqueness is a predicate (`UniqueIds`); it is required only by the lemmas that need it, and upload and delete are proved to preserve it.

### What the handlers do in the less obvious cases

- **Listing with `filter=all`** (or any value other than `public` and `private`) shows the public records of every user plus the caller's own private ones.
- **Listing with `filter=public`** shows public records only, the caller's own included only when they are public.
- **Empty tags are kept**: `"a,,b"` gives three tags, the middle one empty.
- **Fetching someone else's private record** gives 403 while the uploader's account exists. Someone else's public record is returned in full.
- **Fetching a private record whose uploader account is gone** gives 500 for every caller, because the handler reads the `_id` of the missing uploader. Its uploader can still download it.
- **Unsupported list options** fall back to the defaults: `searchBy=title` or `description`, `sort=size`, and `dateFilter`.
- **Upload without a title** stores no title. If the schema rejects that, the upload is a 500.
- **A malformed `:id`** (text that does not cast to an object identifier) makes `findById` throw, so get, download and delete answer 500 rather than 404.

## Model

| member | source | states |
|---|---|---|
| PdfController.Upload | backend/controllers/pdf.controller.js:28-63 | No stored file gives 400 and an unchanged store. A record the schema rejects gives 500 and an unchanged store. Otherwise the store gains exactly the new record, owned by the caller, under the assigned id, with path and size taken from the stored file. |
| PdfController.IsPublicFlag | backend/controllers/pdf.controller.js:43 | A record is public exactly when the form field `isPublic` is the text "true". |
| PdfController.NewRecord | backend/controllers/pdf.controller.js:34-44 | The new record has the assigned id, the caller as owner, the upload time, and the stored file's path and size. Title and description are copied, and absent stays absent. Absent or empty tags give no tags; otherwise tag i is the trimmed i-th comma-separated piece. Public exactly for "true". |
| PdfController.UploadFields | backend/controllers/pdf.controller.js:34-46 | The record an upload stores has the form's title and description (absent stays absent), the parsed tags (tag i is the trimmed i-th comma-separated piece), public exactly for "true", and the upload time as creation time. |
| PdfController.UploadIgnoresOtherFields | backend/controllers/pdf.controller.js:34 | Two bodies that agree on title, description, tags and isPublic give the same upload, so a `fileSize` or owner in the body cannot change the record. |
| PdfController.UploadThenFind | backend/controllers/pdf.controller.js:36-47 | After an upload under a fresh id, ids stay unique and the id finds the new record, which the uploader may read. Every other lookup is unchanged. |
| Tags.ParseTags | backend/controllers/pdf.controller.js:42 | An absent or empty field gives `[]`. Otherwise there are (number of commas + 1) tags, empty ones kept, each trimmed. |
| Tags.ParseTagsPieces | backend/controllers/pdf.controller.js:42 | Tag i is the trimmed i-th comma-separated piece of the field. |
| Tags.ParseJoinedTags | backend/controllers/pdf.controller.js:42 | Parsing `tags.join(', ')` (the edit form's text) gives back any list of comma-free, trimmed tags, except the list holding one empty tag. |
| Tags.TrimSplitJoin | backend/controllers/pdf.controller.js:42 | Split-then-trim inverts join-with-", " on non-empty lists of comma-free, trimmed strings. |
| Text.Split | backend/controllers/pdf.controller.js:42 | `split` returns one more piece than the separator occurs. |
| Text.JoinSplit | backend/controllers/pdf.controller.js:42 | Joining the pieces of a split with the separator restores the string. |
| Text.SplitJoin | backend/controllers/pdf.controller.js:42 | Splitting a join of separator-free pieces gives the pieces back. |
| Text.SplitPiecesLackSeparator | backend/controllers/pdf.controller.js:42 | No piece of a split contains the separator. |
| Text.Trim | backend/controllers/pdf.controller.js:42 | `trim` leaves no whitespace at either end. |
| Text.TrimIsCore | backend/controllers/pdf.controller.js:42 | `trim` removes only whitespace, from both ends: the result is an infix of the input between a whitespace prefix and a whitespace suffix. |
| Text.TrimFixpoint | backend/controllers/pdf.controller.js:42 | `trim` returns its input exactly when the input has no whitespace at either end. |
| Tags.SearchTerms | backend/controllers/pdf.controller.js:75 | Search terms are non-empty and trimmed, at most one per comma-separated piece. |
| Tags.SearchTermsPieces | backend/controllers/pdf.controller.js:75 | A string is a search term exactly when it is the non-empty trimmed text of some comma-separated piece. |
| Tags.NonEmptyMembers | backend/controllers/pdf.controller.js:75 | `filter(Boolean)` keeps exactly the non-empty strings. |
| Tags.SingleSearchTerm | backend/controllers/pdf.controller.js:75 | A comma-free search with some non-blank text is one term, its trimmed text. |
| Tags.BlankSearchHasNoTerms | backend/controllers/pdf.controller.js:74-75 | A search of only commas and whitespace has no terms, so a tag search with it matches nothing. |
| Text.IsInfixAt | backend/controllers/pdf.controller.js:84 | The substring search succeeds exactly when the pattern occurs at some position. |
| Query.ParamsOf | backend/controllers/pdf.controller.js:68 | Each list parameter takes the request's value when present, else its default ("", "newest", "all", "all"). |
| Query.SearchEntryMeaning | backend/controllers/pdf.controller.js:77-92 | The search property means: with `tags`, some tag matches some term; with `name`, the title matches the whole string; with anything else, title or description matches the whole string or some tag matches some term. |
| Query.SearchDocMeaning | backend/controllers/pdf.controller.js:71-93 | The search object matches exactly the records the search clause admits, and an empty search admits every record. |
| Query.SearchDocKeys | backend/controllers/pdf.controller.js:71-93 | The search object never sets `isPublic` or `uploadedBy`. It holds `$or` exactly when the search is non-empty and `searchBy` is neither `tags` nor `name`. |
| Query.PublicMeaning | backend/controllers/pdf.controller.js:96-97 | Adding `isPublic: true` conjoins "public" to the search. |
| Query.PrivateMeaning | backend/controllers/pdf.controller.js:98-100 | Adding `isPublic: false` and `uploadedBy: caller` conjoins "private and the caller's" to the search. |
| Query.AccessMeaning | backend/controllers/pdf.controller.js:103-108 | The access object matches exactly the public records and the caller's own. |
| Query.CombineAccessMeaning | backend/controllers/pdf.controller.js:109-111 | Both ways of adding the access object (`$and` when `$or` is present, spread otherwise) conjoin it with the search. |
| Query.BuildQuery | backend/controllers/pdf.controller.js:71-112 | The query built for any caller and parameters matches a record exactly when it passes the search clause and the visibility clause. |
| Query.SpreadOverwritesSearch | backend/controllers/pdf.controller.js:109-111 | Spreading the access object into a search object that holds `$or` would replace the search. A public record with no title, description or tags then matches although it fails the search. |
| Query.SpreadReplacesOr | backend/controllers/pdf.controller.js:109-111 | The spread of the access object onto a one-`$or` search object is the access object itself. |
| Query.BareRecordMissesSearch | backend/controllers/pdf.controller.js:87-91 | A record without title, description or tags matches no non-empty all-fields search. |
| Sorting.SortBy | backend/controllers/pdf.controller.js:115-128 | The sorted list is a rearrangement of its input in which every record may precede every later one. |
| Sorting.Insert | backend/controllers/pdf.controller.js:115-128 | Inserting into a sorted list keeps it sorted and adds exactly the one record. |
| Sorting.BeforeTotal | backend/controllers/pdf.controller.js:116-125 | Each of the three orders compares every two records. |
| Sorting.BeforeTransitive | backend/controllers/pdf.controller.js:116-125 | Each of the three orders is transitive. |
| Sorting.LexTotal | backend/controllers/pdf.controller.js:121 | The title order compares every two strings. |
| Sorting.LexTransitive | backend/controllers/pdf.controller.js:121 | The title order is transitive. |
| Sorting.LexAntisymmetric | backend/controllers/pdf.controller.js:121 | Two titles that each come no later than the other are equal. |
| Sorting.ByNameTies | backend/controllers/pdf.controller.js:121 | In the title order, only records with equal titles tie. |
| Collection.Find | backend/controllers/pdf.controller.js:153 | `findById` returns a stored record with that id exactly when one exists. |
| Collection.FindStored | backend/controllers/pdf.controller.js:153 | With unique ids, looking up a stored record's id finds that record. |
| Collection.FindAppend | backend/controllers/pdf.controller.js:46 | A record saved under a fresh id is what its id finds. Other lookups are unchanged. |
| Collection.AppendUnique | backend/controllers/pdf.controller.js:46 | Saving under a fresh id keeps ids unique. |
| Collection.Remove | backend/controllers/pdf.controller.js:201 | After removal no record has the id. |
| Collection.RemoveMembers | backend/controllers/pdf.controller.js:201 | Removal keeps exactly the records with other ids. |
| Collection.RemoveUnique | backend/controllers/pdf.controller.js:201 | Removal keeps ids unique. |
| Collection.FindAfterRemove | backend/controllers/pdf.controller.js:201 | Removal does not change the lookup of any other id. |
| Collection.Select | backend/controllers/pdf.controller.js:127 | `find(query)` returns only stored records that match the query, and no more of them than are stored. |
| Collection.SelectCount | backend/controllers/pdf.controller.js:127 | `find(query)` returns every stored copy of each matching record and nothing else. |
| Collection.SelectMembers | backend/controllers/pdf.controller.js:127 | A record is found exactly when it is stored and matches the query. |
| Collection.SelectAppend | backend/controllers/pdf.controller.js:127 | A newly saved record is found by a query exactly when it matches, after the earlier ones. |
| PdfController.ListPdfs | backend/controllers/pdf.controller.js:114-130 | With `sort=oldest` creation times never decrease along the list. With `sort=name` titles never decrease, a missing title first. With any other value creation times never increase. |
| PdfController.ListCount | backend/controllers/pdf.controller.js:71-130 | The list is a permutation of exactly the stored records that pass the search and visibility clauses. |
| PdfController.ListMembers | backend/controllers/pdf.controller.js:71-130 | A record is listed exactly when it is stored and passes both clauses. |
| PdfController.ListedAreReadable | backend/controllers/pdf.controller.js:95-112 | Whatever the parameters, every listed record is public or the caller's. So no other user's private record is ever listed. |
| PdfController.EmptySearchListsVisible | backend/controllers/pdf.controller.js:74 | With no search text, the list is exactly the records visible under the filter, whatever `searchBy` says. |
| PdfController.Summaries | backend/controllers/pdf.controller.js:132-143 | The reply has one entry per listed record, in order, naming the uploader. It fails with 500 exactly when some listed record's uploader no longer exists. |
| PdfController.GetPdfs | backend/controllers/pdf.controller.js:66-148 | A successful reply has as many entries as the list. |
| PdfController.GetPdfsEntries | backend/controllers/pdf.controller.js:132-143 | When every uploader exists, the reply succeeds and entry i describes the i-th listed record, a stored one that passes both clauses. |
| PdfController.Populate | backend/controllers/pdf.controller.js:153 | `populate` yields the uploader's id and account name when the account exists, else null. |
| PdfController.GetPdf | backend/controllers/pdf.controller.js:151-166 | 500 when the id does not cast. 404 exactly when a well-formed id is absent. A public record is always returned, even when its uploader account is gone (with a null uploader). A private record is 403 exactly when its uploader's account exists and is not the caller. A success returns the stored record, which the caller may read, with its populated uploader. |
| PdfController.Download | backend/controllers/pdf.controller.js:169-187 | Succeeds exactly when the id casts and its record exists and is public or the caller's. Otherwise 500 for a malformed id, 403 when the record exists and 404 when it does not. A success sends the stored path. |
| PdfController.DownloadName | backend/controllers/pdf.controller.js:182 | The suggested name is the title followed by ".pdf", and "undefined.pdf" without a title. |
| PdfController.GetAgreesWithDownload | backend/controllers/pdf.controller.js:151-187 | When the uploader exists, get and download both succeed (on the same stored file) or fail with the same status. |
| PdfController.OrphanedPrivateRecord | backend/controllers/pdf.controller.js:158 | A private record whose uploader account is gone is a 500 for every caller who fetches it, while download still succeeds exactly for its uploader. |
| PdfController.ListedCanBeDownloaded | backend/controllers/pdf.controller.js:171-182 | With unique ids, every listed record downloads for the caller who listed it. |
| PdfController.Delete | backend/controllers/pdf.controller.js:190-206 | 500 exactly when the id does not cast. 404 exactly when a well-formed id is absent. Success exactly when the caller owns it, public or not, and the record is then gone. Otherwise 403, and no outcome but success changes the store. |
| PdfController.DeleteThenFind | backend/controllers/pdf.controller.js:197-202 | After a delete, get and download of the id are 404 for everyone. The store keeps exactly the other records, and every other lookup is unchanged. |
| PdfController.PublicNotDeletableByOthers | backend/controllers/pdf.controller.js:197-199 | Someone else's public record downloads but cannot be deleted (403, store unchanged). |
| Collection.OwnerQueryMeaning | backend/controllers/user.controller.js:12 | The `$match` stage admits exactly the caller's records. |
| Collection.OwnedMembers | backend/controllers/user.controller.js:12 | The statistics see exactly the stored records whose uploader is the caller. |
| Collection.OwnedEmpty | backend/controllers/user.controller.js:12 | A user who uploaded nothing has no matching records. |
| Collection.OwnedAppend | backend/controllers/user.controller.js:12 | A new record joins its uploader's records and no one else's. |
| UserController.Tally | backend/controllers/user.controller.js:13-29 | `totalPDFs` is the number of records, and `publicPDFs + privatePDFs = totalPDFs`. |
| UserController.TallyCounts | backend/controllers/user.controller.js:18-27 | `publicPDFs` is the number of records with `isPublic` true, and `privatePDFs` the number with `isPublic` false. |
| Collection.FlagQueryMeaning | backend/controllers/user.controller.js:18-27 | The condition `isPublic: b` admits exactly the records whose flag is `b`. |
| UserController.TallyAppend | backend/controllers/user.controller.js:16-28 | Each statistic of a concatenation is the sum of the parts' statistics: counts, size sum, public and private counts. |
| UserController.TallyRemove | backend/controllers/user.controller.js:16-28 | Taking one record out of a list removes exactly that record's contribution (one, its size, and one public or private). |
| UserController.TallyPermutation | backend/controllers/user.controller.js:11-30 | The statistics do not depend on the order the records are grouped in. |
| UserController.Aggregate | backend/controllers/user.controller.js:11-30 | At most one group, and no group exactly when the caller has no records. |
| UserController.StatsOf | backend/controllers/user.controller.js:32-37 | With no matching records the statistics are four zeros. Otherwise `totalPDFs` is the number of the caller's records, and public plus private is the total. |
| UserController.StatsAreTally | backend/controllers/user.controller.js:32-37 | The zero default agrees with a group over no records, so the statistics are always the tally of the caller's records, and `totalPDFs` is their number. |
| UserController.NoRecordsNoStats | backend/controllers/user.controller.js:32-37 | A caller with no records gets all four statistics 0. |
| UserController.StatsAppend | backend/controllers/user.controller.js:11-29 | A new record adds one, its size, and one public or private count to its uploader's statistics only. |
| UserController.UploadCounts | backend/controllers/user.controller.js:11-29 | A successful upload counts towards the uploader's statistics, with its size and visibility, and towards no one else's. |
| UserController.HundredthsOfMiB | backend/controllers/user.controller.js:43 | The storage figure is bytes/2^20 rounded to the nearest hundredth, with halves rounded up. |
| UserController.HundredthsNearest | backend/controllers/user.controller.js:43 | The rounded figure is within half a hundredth of the exact value. |
| UserController.GetProfile | backend/controllers/user.controller.js:6-50 | 500 exactly when the caller's account is missing. Otherwise the user part is the caller's id, name and email, without the password. The statistics are those of the group over exactly the caller's records: their number (public plus private), the public and private counts, and the size sum in hundredths of a MiB. The group's `_id` appears exactly when there are records. |
| UserController.ChangePassword | backend/controllers/user.controller.js:53-79 | Outcomes: 400 exactly when the account exists and the current password does not match. Success exactly when the account exists, both passwords are given and the current one matches. Anything but success leaves the users unchanged. |
| UserController.ChangePasswordThenMatch | backend/controllers/user.controller.js:67-74 | With a sound hash, after a success the new password matches the stored hash. Nothing else of the caller and nothing of any other user changes. |
| UserController.ProfileIgnoresPassword | backend/controllers/user.controller.js:8 | The profile omits the password, so changing it leaves every profile reply as it was. |

## Left out

- Multer configuration (pdf.controller.js lines 6-25): the 10 MB limit, the PDF mimetype filter and the stored file name are library behaviour. The routes use a separate upload middleware that is not part of this model. The upload sees only the stored file's path and size.
- Text.Matches: the search string is used as a regular expression with the `i` flag; the model treats it as a literal, ASCII-case-insensitive substring. Metacharacters, invalid patterns (which make the database query fail), and Unicode case folding are not modelled.
- Database and file-system I/O: saving, removing, `res.download`, and failures of the database or disk, which end in the handlers' 500 branches. Deleting a record never removes its stored file (line 201 removes only the record), and the model has no blob store either.
- Collection.Remove: removes every record with the id, where `remove()` removes the one record found. The two agree when ids are unique, which the database guarantees.
- The schema (pdf.model.js and user.model.js) is not part of this model. Its validation of a new record is the `accepts` parameter of the upload. Its defaults, and `createdAt` as set by the database, are parameters too.
- Password hashing (bcrypt): `hash`, `matches` and the salt are parameters. A missing current or new password is modelled as the library rejecting the call (500). A failing `user.save()` in `changePassword` is not modelled.
- UserController.HundredthsOfMiB: the source divides and rounds in floating point. The model computes in integers, which agrees whenever bytes × 100 is below 2^53. The final `/ 100` into a decimal is left to the reader of the reply.
- Sorting.SortBy: the database does not fix the order of records with equal sort keys; the model's insertion sort keeps their order from the collection. The title order compares titles character by character by Unicode code point, a proper prefix first. This is the order of the database's default binary string comparison (no collation).
- Which texts cast to an object identifier (24 hexadecimal digits, among others) is driver behaviour: the handlers receive the `:id` already cast, or `None` when the cast fails.
- Request values that are not strings (repeated query parameters, JSON bodies with other types) are not modelled: every field is a string or absent.
- The update (PUT) operation the UI calls, the `dateFilter` parameter, the `size` sort and the `title`/`description` search scopes do not exist in the backend. They fall to the defaults above.
- Authentication middleware, server bootstrap, routes, CORS and logging are not modelled, and neither is the frontend.

=== FILE: collection.dfy ===
/** The database operations the controllers call on the PDF collection:
    `findById`, `find(query)` (before sorting), insertion, removal of one
    record, and the `$match` stage of an aggregation. */
module Collection {
  import opened Types
  import opened Query

  /** Some record carries identifier `id`. */
  predicate HasId(store: Store, id: PdfId) {
    exists i :: 0 <= i < |store| && store[i].id == id
  }

  /** The database keeps `_id` unique. */
  predicate UniqueIds(store: Store) {
    forall i, j :: 0 <= i < j < |store| ==> store[i].id != store[j].id
  }

  /** `findById(id)`: the record with that identifier, or `null`. */
  function Find(store: Store, id: PdfId): (r: Option<Pdf>)
    ensures r.Some? <==> HasId(store, id)
    ensures r.Some? ==> r.value in store && r.value.id == id
  {
    if |store| == 0 then None
    else if store[0].id == id then Some(store[0])
    else
      HasIdTail(store, id);
      Find(store[1..], id)
  }

  lemma {:induction false} HasIdTail(store: Store, id: PdfId)
    requires |store| > 0
    ensures HasId(store, id) <==> store[0].id == id || HasId(store[1..], id)
  {
    if HasId(store, id) && store[0].id != id {
      var i :| 0 <= i < |store| && store[i].id == id;
      assert store[1..][i - 1] == store[i];
    }
    if HasId(store[1..], id) {
      var i :| 0 <= i < |store[1..]| && store[1..][i].id == id;
      assert store[i + 1] == store[1..][i];
    }
  }

  /** With unique identifiers, looking up a stored record's identifier
      finds that record. */
  lemma {:induction false} FindStored(store: Store, p: Pdf)
    requires UniqueIds(store)
    requires p in store
    ensures Find(store, p.id) == Some(p)
  {
    if store[0] != p {
      assert store[0].id != p.id by {
        var i :| 0 <= i < |store| && store[i] == p;
        assert i != 0;
      }
      assert p in store[1..] by {
        var i :| 0 <= i < |store| && store[i] == p;
        assert store[1..][i - 1] == p;
      }
      FindStored(store[1..], p);
    }
  }

  /** A record inserted under a fresh identifier is what a lookup of that
      identifier finds, and every other lookup is unaffected. */
  lemma {:induction false} FindAppend(store: Store, p: Pdf, id: PdfId)
    requires !HasId(store, p.id)
    ensures Find(store + [p], id) == if id == p.id then Some(p) else Find(store, id)
  {
    if |store| == 0 {
      assert store + [p] == [p];
    } else {
      assert (store + [p])[1..] == store[1..] + [p];
      HasIdTail(store, p.id);
      FindAppend(store[1..], p, id);
    }
  }

  /** Inserting a record under a fresh identifier keeps identifiers unique. */
  lemma {:induction false} AppendUnique(store: Store, p: Pdf)
    requires UniqueIds(store) && !HasId(store, p.id)
    ensures UniqueIds(store + [p])
  {
    var s := store + [p];
    forall i, j | 0 <= i < j < |s|
      ensures s[i].id != s[j].id
    {
      if j == |store| {
        assert s[i] == store[i];
      } else {
        assert s[i] == store[i] && s[j] == store[j];
      }
    }
  }

  /** Removing the record with identifier `id` (every record, should there
      be more than one). */
  function Remove(store: Store, id: PdfId): (r: Store)
    ensures |r| <= |store|
    ensures !HasId(r, id)
  {
    if |store| == 0 then []
    else
      var rest := Remove(store[1..], id);
      if store[0].id == id then rest
      else
        assert ([store[0]] + rest)[1..] == rest;
        HasIdTail([store[0]] + rest, id);
        [store[0]] + rest
  }

  /** Removal keeps exactly the records with another identifier. */
  lemma {:induction false} RemoveMembers(store: Store, id: PdfId, p: Pdf)
    ensures p in Remove(store, id) <==> p in store && p.id != id
  {
    if |store| > 0 {
      RemoveMembers(store[1..], id, p);
      assert store == [store[0]] + store[1..];
    }
  }

  /** Removal keeps identifiers unique. */
  lemma {:induction false} RemoveUnique(store: Store, id: PdfId)
    requires UniqueIds(store)
    ensures UniqueIds(Remove(store, id))
  {
    if |store| > 0 {
      var tail := store[1..];
      forall i, j | 0 <= i < j < |tail|
        ensures tail[i].id != tail[j].id
      {
        assert tail[i] == store[i + 1] && tail[j] == store[j + 1];
      }
      RemoveUnique(tail, id);
      if store[0].id != id {
        var rest := Remove(tail, id);
        var r := [store[0]] + rest;
        forall i, j | 0 <= i < j < |r|
          ensures r[i].id != r[j].id
        {
          if i == 0 {
            assert r[j] == rest[j - 1];
            RemoveMembers(tail, id, r[j]);
            var k :| 0 <= k < |tail| && tail[k] == r[j];
            assert store[k + 1] == r[j];
          } else {
            assert r[i] == rest[i - 1] && r[j] == rest[j - 1];
          }
        }
      }
    }
  }

  /** Lookups of every other identifier are unaffected by a removal. */
  lemma {:induction false} FindAfterRemove(store: Store, id: PdfId, other: PdfId)
    requires other != id
    ensures Find(Remove(store, id), other) == Find(store, other)
  {
    if |store| > 0 {
      FindAfterRemove(store[1..], id, other);
      if store[0].id != id {
        assert ([store[0]] + Remove(store[1..], id))[1..] == Remove(store[1..], id);
      }
    }
  }

  /** `find(query)` before sorting: the records the query matches, in
      collection order. */
  function Select(store: Store, q: Doc): (r: Store)
    ensures |r| <= |store|
    ensures forall i :: 0 <= i < |r| ==> Holds(q, r[i]) && r[i] in store
  {
    if |store| == 0 then []
    else if Holds(q, store[0]) then [store[0]] + Select(store[1..], q)
    else Select(store[1..], q)
  }

  /** Every stored copy of a matching record is returned, and nothing else. */
  lemma {:induction false} SelectCount(store: Store, q: Doc, p: Pdf)
    ensures multiset(Select(store, q))[p] == if Holds(q, p) then multiset(store)[p] else 0
  {
    if |store| > 0 {
      SelectCount(store[1..], q, p);
      assert store == [store[0]] + store[1..];
    }
  }

  lemma {:induction false} SelectMembers(store: Store, q: Doc, p: Pdf)
    ensures p in Select(store, q) <==> p in store && Holds(q, p)
  {
    SelectCount(store, q, p);
  }

  /** `{ $match: { uploadedBy: u } }`. */
  function OwnerQuery(u: UserId): Doc {
    Doc([FieldEntry(OwnerField, IsUser(u))])
  }

  /** The records uploaded by `u`, in collection order. */
  function Owned(store: Store, u: UserId): Store {
    Select(store, OwnerQuery(u))
  }

  /** `{ isPublic: b }`, the condition the statistics count by. */
  function FlagQuery(b: bool): Doc {
    Doc([FieldEntry(IsPublicField, IsBool(b))])
  }

  lemma {:induction false} FlagQueryMeaning(b: bool, p: Pdf)
    ensures Holds(FlagQuery(b), p) <==> p.isPublic == b
  {
    SingleEntry(FieldEntry(IsPublicField, IsBool(b)), p);
  }

  lemma {:induction false} OwnerQueryMeaning(u: UserId, p: Pdf)
    ensures Holds(OwnerQuery(u), p) <==> p.owner == u
  {
    SingleEntry(FieldEntry(OwnerField, IsUser(u)), p);
  }

  lemma {:induction false} OwnedMembers(store: Store, u: UserId, p: Pdf)
    ensures p in Owned(store, u) <==> p in store && p.owner == u
  {
    SelectMembers(store, OwnerQuery(u), p);
    OwnerQueryMeaning(u, p);
  }

  /** A user who uploaded nothing owns no records. */
  lemma {:induction false} OwnedEmpty(store: Store, u: UserId)
    requires forall p :: p in store ==> p.owner != u
    ensures Owned(store, u) == []
  {
    if |store| > 0 {
      OwnerQueryMeaning(u, store[0]);
      assert forall p :: p in store[1..] ==> p in store;
      OwnedEmpty(store[1..], u);
    }
  }

  /** A record inserted by `u` joins the end of `u`'s records and no one
      else's. */
  lemma {:induction false} OwnedAppend(store: Store, p: Pdf, u: UserId)
    ensures Owned(store + [p], u) == if p.owner == u then Owned(store, u) + [p] else Owned(store, u)
  {
    OwnerQueryMeaning(u, p);
    SelectAppend(store, OwnerQuery(u), p);
  }

  lemma {:induction false} SelectAppend(store: Store, q: Doc, p: Pdf)
    ensures Select(store + [p], q) == if Holds(q, p) then Select(store, q) + [p] else Select(store, q)
  {
    if |store| == 0 {
      assert store + [p] == [p];
      assert [p][1..] == [];
    } else {
      assert (store + [p])[1..] == store[1..] + [p];
      SelectAppend(store[1..], q, p);
    }
  }
}

=== FILE: pdfcontroller.dfy ===
/** The request handlers of pdf.controller.js: upload, list, get one,
    download and delete. The signed-in caller (`req.user._id`), the stored
    file multer hands over, fresh identifiers, the clock and the schema's
    validation arrive as parameters. */
module PdfController {
  import opened Types
  import opened Tags
  import opened Query
  import opened Sorting
  import opened Collection

  /** A record the caller may read: one the list shows under every filter
      value other than "public" and "private". */
  predicate CanRead(caller: UserId, p: Pdf) {
    Visible(Everything, caller, p)
  }

  // ---------------------------------------------------------------------
  // uploadPDF (lines 28-63)

  /** `req.file` as multer leaves it after storing the upload. */
  datatype UploadedFile = UploadedFile(path: string, size: nat)

  /** `isPublic === 'true'`: only that exact text makes a record public. */
  function IsPublicFlag(body: Fields): (r: bool)
    ensures r <==> "isPublic" in body && body["isPublic"] == "true"
  {
    Lookup(body, "isPublic") == Some("true")
  }

  /** Lines 34-44: the record built from the stored file and the form
      fields. The caller owns it, the stored file gives its path and size,
      title and description are copied (absent stays absent), the tags are
      the trimmed comma-separated pieces of the field, and it is public
      only for the text "true". */
  function NewRecord(caller: UserId, file: UploadedFile, body: Fields, id: PdfId, now: int): (r: Pdf)
    ensures r.id == id && r.owner == caller && r.createdAt == now
    ensures r.filePath == file.path && r.fileSize == file.size
    ensures r.title.Some? <==> "title" in body
    ensures r.title.Some? ==> r.title.value == body["title"]
    ensures r.description.Some? <==> "description" in body
    ensures r.description.Some? ==> r.description.value == body["description"]
    ensures "tags" !in body || body["tags"] == "" ==> r.tags == []
    ensures "tags" in body && body["tags"] != "" ==>
      && |r.tags| == Text.Count(body["tags"], ',') + 1
      && forall i :: 0 <= i < |r.tags| ==> r.tags[i] == Text.Trim(Text.Split(body["tags"], ',')[i])
    ensures r.isPublic <==> "isPublic" in body && body["isPublic"] == "true"
  {
    Pdf(
      id,
      Lookup(body, "title"),
      Lookup(body, "description"),
      file.path,
      file.size,
      caller,
      ParseTags(Lookup(body, "tags")),
      IsPublicFlag(body),
      now)
  }

  /** Upload: no stored file is a 400 and nothing is written; a record the
      schema rejects is a 500 (the `catch` branch); otherwise the record is
      inserted and returned with 201. `accepts` stands for the schema's
      validation, `id` for the identifier the database assigns. */
  function Upload(store: Store, caller: UserId, file: Option<UploadedFile>, body: Fields,
                  id: PdfId, now: int, accepts: Pdf -> bool): (r: (Result<Pdf>, Store))
    ensures file.None? ==> r == (Failure(BadRequest), store)
    ensures r.0.Failure? ==> r.1 == store && r.0.status in {BadRequest, ServerError}
    ensures file.Some? && !accepts(NewRecord(caller, file.value, body, id, now)) ==> r == (Failure(ServerError), store)
    ensures r.0.Success? <==> file.Some? && accepts(NewRecord(caller, file.value, body, id, now))
    ensures r.0.Success? ==>
      && r.1 == store + [r.0.value]
      && r.0.value.id == id && r.0.value.owner == caller
      && r.0.value.filePath == file.value.path && r.0.value.fileSize == file.value.size
  {
    match file
    case None => (Failure(BadRequest), store)
    case Some(f) =>
      var p := NewRecord(caller, f, body, id, now);
      if accepts(p) then (Success(p), store + [p]) else (Failure(ServerError), store)
  }

  /** The fields of the stored record come from the form as `uploadPDF`
      reads them: title and description copied (absent stays absent), tags
      split at commas and trimmed, public only for the text "true", and the
      creation time is the time of the upload. */
  lemma UploadFields(store: Store, caller: UserId, f: UploadedFile, body: Fields,
                     id: PdfId, now: int, accepts: Pdf -> bool)
    requires Upload(store, caller, Some(f), body, id, now, accepts).0.Success?
    ensures var p := Upload(store, caller, Some(f), body, id, now, accepts).0.value;
      && (p.title.Some? <==> "title" in body) && (p.title.Some? ==> p.title.value == body["title"])
      && (p.description.Some? <==> "description" in body)
      && (p.description.Some? ==> p.description.value == body["description"])
      && p.tags == ParseTags(Lookup(body, "tags"))
      && ("tags" !in body || body["tags"] == "" ==> p.tags == [])
      && ("tags" in body && body["tags"] != "" ==>
            && |p.tags| == Text.Count(body["tags"], ',') + 1
            && forall i :: 0 <= i < |p.tags| ==> p.tags[i] == Text.Trim(Text.Split(body["tags"], ',')[i]))
      && (p.isPublic <==> "isPublic" in body && body["isPublic"] == "true")
      && p.createdAt == now
  {
  }

  /** Only the four form fields the handler destructures matter: two bodies
      that agree on them give the same upload. */
  lemma {:induction false} UploadIgnoresOtherFields(store: Store, caller: UserId, file: Option<UploadedFile>,
                     a: Fields, b: Fields, id: PdfId, now: int, accepts: Pdf -> bool)
    requires Lookup(a, "title") == Lookup(b, "title")
    requires Lookup(a, "description") == Lookup(b, "description")
    requires Lookup(a, "tags") == Lookup(b, "tags")
    requires Lookup(a, "isPublic") == Lookup(b, "isPublic")
    ensures Upload(store, caller, file, a, id, now, accepts) == Upload(store, caller, file, b, id, now, accepts)
  {
  }

  /** A fresh identifier keeps identifiers unique, and the uploader can read
      the new record back at once. */
  lemma {:induction false} UploadThenFind(store: Store, caller: UserId, f: UploadedFile, body: Fields,
                     id: PdfId, now: int, accepts: Pdf -> bool)
    requires UniqueIds(store) && !HasId(store, id)
    requires Upload(store, caller, Some(f), body, id, now, accepts).0.Success?
    ensures var (res, after) := Upload(store, caller, Some(f), body, id, now, accepts);
      && UniqueIds(after)
      && Find(after, id) == Some(res.value)
      && CanRead(caller, res.value)
      && forall other :: other != id ==> Find(after, other) == Find(store, other)
  {
    var p := NewRecord(caller, f, body, id, now);
    AppendUnique(store, p);
    FindAppend(store, p, id);
    forall other | other != id
      ensures Find(store + [p], other) == Find(store, other)
    {
      FindAppend(store, p, other);
    }
  }

  // ---------------------------------------------------------------------
  // getPDFs (lines 66-148)

  /** Lines 114-130: the matching records, sorted as requested. */
  function ListPdfs(store: Store, caller: UserId, params: Params): (r: seq<Pdf>)
    ensures Sorted(SortOf(params.sort), r)
    ensures params.sort == "oldest" ==>
      forall i, j :: 0 <= i < j < |r| ==> r[i].createdAt <= r[j].createdAt
    ensures params.sort == "name" ==>
      forall i, j :: 0 <= i < j < |r| ==> TitleLe(r[i].title, r[j].title)
    ensures params.sort != "oldest" && params.sort != "name" ==>
      forall i, j :: 0 <= i < j < |r| ==> r[i].createdAt >= r[j].createdAt
  {
    SortBy(SortOf(params.sort), Select(store, BuildQuery(caller, params)))
  }

  /** The list holds every stored copy of each record that passes the
      search and visibility clauses, and nothing else. */
  lemma {:induction false} ListCount(store: Store, caller: UserId, params: Params, p: Pdf)
    ensures multiset(ListPdfs(store, caller, params))[p] ==
      if Selected(caller, params, p) then multiset(store)[p] else 0
  {
    SelectCount(store, BuildQuery(caller, params), p);
  }

  lemma {:induction false} ListMembers(store: Store, caller: UserId, params: Params, p: Pdf)
    ensures p in ListPdfs(store, caller, params) <==> p in store && Selected(caller, params, p)
  {
    ListCount(store, caller, params, p);
  }

  /** Whatever the parameters, the list never shows a record the caller may
      not read. */
  lemma {:induction false} ListedAreReadable(store: Store, caller: UserId, params: Params, p: Pdf)
    requires p in ListPdfs(store, caller, params)
    ensures CanRead(caller, p)
  {
    ListMembers(store, caller, params, p);
  }

  /** With no search text the list is exactly the visible records, whatever
      `searchBy` says. */
  lemma {:induction false} EmptySearchListsVisible(store: Store, caller: UserId, params: Params, p: Pdf)
    requires params.search == ""
    ensures p in ListPdfs(store, caller, params) <==>
      p in store && Visible(VisibilityOf(params.filter), caller, p)
  {
    ListMembers(store, caller, params, p);
  }

  /** A list entry: the record's public fields and its uploader's name. */
  datatype Summary = Summary(
    id: PdfId,
    title: Option<string>,
    description: Option<string>,
    fileSize: nat,
    tags: seq<string>,
    isPublic: bool,
    createdAt: int,
    uploadedBy: string)

  function SummaryOf(p: Pdf, username: string): Summary {
    Summary(p.id, p.title, p.description, p.fileSize, p.tags, p.isPublic, p.createdAt, username)
  }

  /** Lines 132-143: one entry per record, in order, naming the uploader;
      a record whose uploader no longer exists leaves `uploadedBy` null
      after `populate`, and reading its `username` fails the request. */
  function Summaries(users: Users, ps: seq<Pdf>): (r: Result<seq<Summary>>)
    ensures r.Success? <==> forall i :: 0 <= i < |ps| ==> ps[i].owner in users
    ensures r.Failure? ==> r.status == ServerError
    ensures r.Success? ==> |r.value| == |ps|
    ensures r.Success? ==>
      forall i :: 0 <= i < |ps| ==> r.value[i] == SummaryOf(ps[i], users[ps[i].owner].username)
  {
    if |ps| == 0 then Success([])
    else if ps[0].owner !in users then Failure(ServerError)
    else
      match Summaries(users, ps[1..])
      case Failure(s) => Failure(s)
      case Success(rest) => Success([SummaryOf(ps[0], users[ps[0].owner].username)] + rest)
  }

  /** The whole handler on a query string. */
  function GetPdfs(users: Users, store: Store, caller: UserId, query: Fields): (r: Result<seq<Summary>>)
    ensures r.Success? ==> |r.value| == |ListPdfs(store, caller, ParamsOf(query))|
  {
    Summaries(users, ListPdfs(store, caller, ParamsOf(query)))
  }

  /** When every uploader exists, the reply succeeds and each entry
      describes a listed record the caller may read. */
  lemma {:induction false} GetPdfsEntries(users: Users, store: Store, caller: UserId, query: Fields, i: int)
    requires forall p :: p in store ==> p.owner in users
    requires 0 <= i < |ListPdfs(store, caller, ParamsOf(query))|
    ensures GetPdfs(users, store, caller, query).Success?
    ensures var p := ListPdfs(store, caller, ParamsOf(query))[i];
      && GetPdfs(users, store, caller, query).value[i] == SummaryOf(p, users[p.owner].username)
      && p in store && Selected(caller, ParamsOf(query), p)
  {
    var params := ParamsOf(query);
    var listed := ListPdfs(store, caller, params);
    forall j | 0 <= j < |listed|
      ensures listed[j].owner in users
    {
      ListMembers(store, caller, params, listed[j]);
    }
    ListMembers(store, caller, params, listed[i]);
  }

  // ---------------------------------------------------------------------
  // getPDF (lines 151-166)

  /** `uploadedBy` after `populate('uploadedBy', 'username')`. */
  datatype Uploader = Uploader(id: UserId, username: string)

  /** The reply of `getPDF`: the record with its populated uploader, `null`
      when the uploader no longer exists. */
  datatype Populated = Populated(pdf: Pdf, uploadedBy: Option<Uploader>)

  function Populate(users: Users, p: Pdf): (r: Option<Uploader>)
    ensures r.Some? <==> p.owner in users
    ensures r.Some? ==> r.value.id == p.owner && r.value.username == users[p.owner].username
  {
    if p.owner in users then Some(Uploader(p.owner, users[p.owner].username)) else None
  }

  /** 500 when the id does not cast (the `catch` branch); 404 when absent;
      a public record is returned as it is; for a private record the
      uploader's `_id` is compared with the caller's, which fails with 500
      when the uploader no longer exists, and is 403 when it differs. */
  function GetPdf(users: Users, store: Store, caller: UserId, id: IdParam): (r: Result<Populated>)
    ensures id.None? ==> r == Failure(ServerError)
    ensures r == Failure(NotFound) <==> id.Some? && !HasId(store, id.value)
    ensures r.Success? ==>
      && id.Some? && Some(r.value.pdf) == Find(store, id.value)
      && CanRead(caller, r.value.pdf)
      && r.value.uploadedBy == Populate(users, r.value.pdf)
    ensures id.Some? && HasId(store, id.value) && Find(store, id.value).value.isPublic ==> r.Success?
    ensures r == Failure(Forbidden) <==>
      && id.Some? && HasId(store, id.value)
      && var p := Find(store, id.value).value;
         !p.isPublic && p.owner in users && p.owner != caller
  {
    match id
    case None => Failure(ServerError)
    case Some(i) =>
      match Find(store, i)
      case None => Failure(NotFound)
      case Some(p) =>
        if p.isPublic then Success(Populated(p, Populate(users, p)))
        else
          match Populate(users, p)
          case None => Failure(ServerError)
          case Some(u) => if u.id != caller then Failure(Forbidden) else Success(Populated(p, Some(u)))
  }

  // ---------------------------------------------------------------------
  // downloadPdf (lines 169-187)

  /** What `res.download` is given: the stored path and the suggested name. */
  datatype Attachment = Attachment(path: string, filename: string)

  /** A title in string concatenation: an absent title prints "undefined". */
  function TitleText(title: Option<string>): string {
    match title
    case Some(t) => t
    case None => "undefined"
  }

  /** 500 when the id does not cast, 404 when absent, 403 when private and
      not the caller's, otherwise the stored file under the title with
      ".pdf" appended. */
  function Download(store: Store, caller: UserId, id: IdParam): (r: Result<Attachment>)
    ensures r.Success? <==> id.Some? && HasId(store, id.value) && CanRead(caller, Find(store, id.value).value)
    ensures r.Failure? ==>
      r.status == (if id.None? then ServerError else if HasId(store, id.value) then Forbidden else NotFound)
    ensures r.Success? ==> r.value.path == Find(store, id.value).value.filePath
  {
    match id
    case None => Failure(ServerError)
    case Some(i) =>
      match Find(store, i)
      case None => Failure(NotFound)
      case Some(p) =>
        if !p.isPublic && p.owner != caller then Failure(Forbidden)
        else Success(Attachment(p.filePath, TitleText(p.title) + ".pdf"))
  }

  /** The suggested file name is the title followed by ".pdf"; a record
      without a title downloads as "undefined.pdf". */
  lemma DownloadName(store: Store, caller: UserId, id: PdfId)
    requires Download(store, caller, Some(id)).Success?
    ensures var name := Download(store, caller, Some(id)).value.filename;
      var title := Find(store, id).value.title;
      && |name| >= 4 && name[|name| - 4..] == ".pdf"
      && (title.Some? ==> name[..|name| - 4] == title.value)
      && (title.None? ==> name == "undefined.pdf")
  {
  }

  /** Getting and downloading agree whenever the uploader exists: both
      succeed on the same record, or both fail with the same status. */
  lemma {:induction false} GetAgreesWithDownload(users: Users, store: Store, caller: UserId, id: IdParam)
    requires id.Some? && HasId(store, id.value) ==> Find(store, id.value).value.owner in users
    ensures GetPdf(users, store, caller, id).Success? <==> Download(store, caller, id).Success?
    ensures GetPdf(users, store, caller, id).Failure? ==>
      GetPdf(users, store, caller, id).status == Download(store, caller, id).status
    ensures GetPdf(users, store, caller, id).Success? ==>
      Download(store, caller, id).value.path == GetPdf(users, store, caller, id).value.pdf.filePath
  {
  }

  /** Where they differ: a private record whose uploader account is gone
      cannot be fetched by anyone (line 158 reads `_id` of the missing
      uploader), yet its uploader can still download it. */
  lemma {:induction false} OrphanedPrivateRecord(users: Users, store: Store, caller: UserId, id: PdfId)
    requires HasId(store, id)
    requires var p := Find(store, id).value; !p.isPublic && p.owner !in users
    ensures GetPdf(users, store, caller, Some(id)) == Failure(ServerError)
    ensures Download(store, caller, Some(id)).Success? <==> Find(store, id).value.owner == caller
  {
  }

  /** Every listed record can be downloaded by the caller who listed it. */
  lemma {:induction false} ListedCanBeDownloaded(store: Store, caller: UserId, params: Params, p: Pdf)
    requires UniqueIds(store)
    requires p in ListPdfs(store, caller, params)
    ensures Download(store, caller, Some(p.id)) == Success(Attachment(p.filePath, TitleText(p.title) + ".pdf"))
  {
    ListMembers(store, caller, params, p);
    FindStored(store, p);
  }

  // ---------------------------------------------------------------------
  // deletePDF (lines 190-206)

  /** 500 when the id does not cast, 404 when absent, 403 unless the caller
      uploaded it (public or not), otherwise the record is removed. */
  function Delete(store: Store, caller: UserId, id: IdParam): (r: (Status, Store))
    ensures r.0 in {Ok, NotFound, Forbidden, ServerError}
    ensures r.0 == ServerError <==> id.None?
    ensures r.0 == NotFound <==> id.Some? && !HasId(store, id.value)
    ensures r.0 == Ok <==> id.Some? && HasId(store, id.value) && Find(store, id.value).value.owner == caller
    ensures r.0 == Ok ==> !HasId(r.1, id.value)
    ensures r.0 != Ok ==> r.1 == store
  {
    match id
    case None => (ServerError, store)
    case Some(i) =>
      match Find(store, i)
      case None => (NotFound, store)
      case Some(p) =>
        if p.owner != caller then (Forbidden, store)
        else (Ok, Remove(store, i))
  }

  /** After a delete the record is gone for every caller, and every other
      record is still found as before. */
  lemma {:induction false} DeleteThenFind(users: Users, store: Store, caller: UserId, id: PdfId)
    requires Delete(store, caller, Some(id)).0 == Ok
    ensures var after := Delete(store, caller, Some(id)).1;
      && (forall c :: GetPdf(users, after, c, Some(id)) == Failure(NotFound))
      && (forall c :: Download(after, c, Some(id)) == Failure(NotFound))
      && (forall other :: other != id ==> Find(after, other) == Find(store, other))
      && forall p :: p in after <==> p in store && p.id != id
  {
    forall other | other != id
      ensures Find(Remove(store, id), other) == Find(store, other)
    {
      FindAfterRemove(store, id, other);
    }
    forall p
      ensures p in Remove(store, id) <==> p in store && p.id != id
    {
      RemoveMembers(store, id, p);
    }
  }

  /** Reading and deleting differ: someone else's public record can be
      read but not deleted. */
  lemma {:induction false} PublicNotDeletableByOthers(store: Store, caller: UserId, id: PdfId)
    requires HasId(store, id)
    requires var p := Find(store, id).value; p.isPublic && p.owner != caller
    ensures Download(store, caller, Some(id)).Success?
    ensures Delete(store, caller, Some(id)) == (Forbidden, store)
  {
  }
}

=== FILE: query.dfy ===
/** The list query of `getPDFs` (pdf.controller.js lines 66-112): the
    controller assembles a database query document field by field, and the
    database returns the records the document matches. The module models
    the document as the controller builds it, gives the document a meaning,
    and proves that meaning equal to a declarative reading: a search clause
    conjoined with a visibility clause. */
module Query {
  import opened Types
  import opened Text
  import opened Tags

  // ---------------------------------------------------------------------
  // Query documents

  /** The record fields a query can constrain. */
  datatype Field = TitleField | DescriptionField | TagsField | IsPublicField | OwnerField

  /** A condition on one field. */
  datatype Cond =
    | Regex(pattern: string)          // { $regex: pattern, $options: 'i' }
    | InRegex(patterns: seq<string>)  // { $in: patterns.map(p => new RegExp(p, 'i')) }
    | IsBool(b: bool)                 // field: b
    | IsUser(u: UserId)               // field: u

  /** The keys of a query object: a field name, `$or` or `$and`. */
  datatype Key = FieldKey(field: Field) | OrKey | AndKey

  datatype Entry =
    | FieldEntry(field: Field, cond: Cond)
    | OrEntry(branches: seq<Doc>)
    | AndEntry(parts: seq<Doc>)

  /** A query object: its entries in insertion order, at most one per key. */
  datatype Doc = Doc(entries: seq<Entry>)

  function KeyOf(e: Entry): Key {
    match e
    case FieldEntry(f, _) => FieldKey(f)
    case OrEntry(_) => OrKey
    case AndEntry(_) => AndKey
  }

  /** The property `query.<k>` is present. */
  predicate HasKey(d: Doc, k: Key) {
    exists i :: 0 <= i < |d.entries| && KeyOf(d.entries[i]) == k
  }

  function Assign(es: seq<Entry>, e: Entry): seq<Entry>
  {
    if |es| == 0 then [e]
    else if KeyOf(es[0]) == KeyOf(e) then [e] + es[1..]
    else [es[0]] + Assign(es[1..], e)
  }

  /** `d.<key> = value`: an existing property is overwritten in place, a new
      one is added at the end. */
  function Set(d: Doc, e: Entry): Doc {
    Doc(Assign(d.entries, e))
  }

  /** `{ ...a, ...b }`: the properties of `b` assigned onto a copy of `a`. */
  function Spread(a: Doc, b: Doc): Doc
    decreases |b.entries|
  {
    if |b.entries| == 0 then a else Spread(Set(a, b.entries[0]), Doc(b.entries[1..]))
  }

  // ---------------------------------------------------------------------
  // What a query document matches

  /** The strings a field holds: a missing title or description holds none,
      the tags array holds its elements. */
  function FieldValues(f: Field, p: Pdf): seq<string> {
    match f
    case TitleField => if p.title.Some? then [p.title.value] else []
    case DescriptionField => if p.description.Some? then [p.description.value] else []
    case TagsField => p.tags
    case _ => []
  }

  /** Some pattern matches some value (a regular expression applied to an
      array field tests each element). */
  predicate SomeMatch(patterns: seq<string>, values: seq<string>) {
    exists i, j :: 0 <= i < |patterns| && 0 <= j < |values| && Matches(patterns[i], values[j])
  }

  predicate CondHolds(f: Field, c: Cond, p: Pdf) {
    match c
    case Regex(pattern) => SomeMatch([pattern], FieldValues(f, p))
    case InRegex(patterns) => SomeMatch(patterns, FieldValues(f, p))
    case IsBool(b) => f == IsPublicField && p.isPublic == b
    case IsUser(u) => f == OwnerField && p.owner == u
  }

  /** A record matches a query object when it satisfies every entry. */
  predicate Holds(d: Doc, p: Pdf)
    decreases d
  {
    forall i :: 0 <= i < |d.entries| ==> EntryHolds(d.entries[i], p)
  }

  predicate EntryHolds(e: Entry, p: Pdf)
    decreases e
  {
    match e
    case FieldEntry(f, c) => CondHolds(f, c, p)
    case OrEntry(branches) => exists i :: 0 <= i < |branches| && Holds(branches[i], p)
    case AndEntry(parts) => forall i :: 0 <= i < |parts| ==> Holds(parts[i], p)
  }

  // ---------------------------------------------------------------------
  // Request parameters

  /** The query-string parameters `getPDFs` reads. */
  datatype Params = Params(search: string, sort: string, filter: string, searchBy: string)

  /** Destructuring with defaults: an absent parameter takes its default,
      every other parameter of the request is ignored. */
  function ParamsOf(query: Fields): (r: Params)
    ensures r.search == (if "search" in query then query["search"] else "")
    ensures r.sort == (if "sort" in query then query["sort"] else "newest")
    ensures r.filter == (if "filter" in query then query["filter"] else "all")
    ensures r.searchBy == (if "searchBy" in query then query["searchBy"] else "all")
  {
    Params(
      Lookup(query, "search").GetOr(""),
      Lookup(query, "sort").GetOr("newest"),
      Lookup(query, "filter").GetOr("all"),
      Lookup(query, "searchBy").GetOr("all"))
  }

  // ---------------------------------------------------------------------
  // The query the controller builds

  /** Lines 77-92: the search property chosen by `searchBy`. */
  function SearchEntry(search: string, terms: seq<string>, searchBy: string): Entry {
    if searchBy == "tags" then
      FieldEntry(TagsField, InRegex(terms))
    else if searchBy == "name" then
      FieldEntry(TitleField, Regex(search))
    else
      OrEntry([
        Doc([FieldEntry(TitleField, Regex(search))]),
        Doc([FieldEntry(DescriptionField, Regex(search))]),
        Doc([FieldEntry(TagsField, InRegex(terms))])])
  }

  /** Lines 71-93: an empty object, or one holding the search property. */
  function SearchDoc(params: Params): Doc {
    var empty := Doc([]);
    if params.search == "" then empty
    else Set(empty, SearchEntry(params.search, SearchTerms(params.search), params.searchBy))
  }

  /** Lines 103-108: public, or uploaded by the caller. */
  function AccessDoc(caller: UserId): Doc {
    Doc([OrEntry([
      Doc([FieldEntry(IsPublicField, IsBool(true))]),
      Doc([FieldEntry(OwnerField, IsUser(caller))])])])
  }

  /** Lines 71-112: the visibility properties added to the search object.
      The query matches exactly the records that pass the search clause and
      the visibility clause of the declarative reading below. */
  function BuildQuery(caller: UserId, params: Params): (r: Doc)
    ensures forall p :: Holds(r, p) <==> Selected(caller, params, p)
  {
    var query := SearchDoc(params);
    SearchDocKeys(params);
    if params.filter == "public" then
      var r := Set(query, FieldEntry(IsPublicField, IsBool(true)));
      assert forall p :: Holds(r, p) <==> Selected(caller, params, p) by {
        forall p
          ensures Holds(r, p) <==> Selected(caller, params, p)
        {
          SearchDocMeaning(params, p);
          PublicMeaning(query, p);
        }
      }
      r
    else if params.filter == "private" then
      var r := Set(Set(query, FieldEntry(IsPublicField, IsBool(false))), FieldEntry(OwnerField, IsUser(caller)));
      assert forall p :: Holds(r, p) <==> Selected(caller, params, p) by {
        forall p
          ensures Holds(r, p) <==> Selected(caller, params, p)
        {
          SearchDocMeaning(params, p);
          PrivateMeaning(query, caller, p);
        }
      }
      r
    else
      var r := CombineAccess(query, caller);
      assert forall p :: Holds(r, p) <==> Selected(caller, params, p) by {
        forall p
          ensures Holds(r, p) <==> Selected(caller, params, p)
        {
          SearchDocMeaning(params, p);
          CombineAccessMeaning(query, caller, p);
        }
      }
      r
  }

  /** Lines 109-111: conjoin the access object, by `$and` when the search
      object holds `$or`, by spreading otherwise. */
  function CombineAccess(query: Doc, caller: UserId): Doc {
    if HasKey(query, OrKey) then Doc([AndEntry([query, AccessDoc(caller)])])
    else Spread(query, AccessDoc(caller))
  }

  // ---------------------------------------------------------------------
  // The declarative reading

  /** The `filter` parameter: "public", "private", and anything else. */
  datatype Visibility = Everything | PublicOnly | PrivateOnly

  function VisibilityOf(filter: string): Visibility {
    if filter == "public" then PublicOnly
    else if filter == "private" then PrivateOnly
    else Everything
  }

  /** The `searchBy` parameter: "tags", "name", and anything else. */
  datatype Scope = TagsOnly | TitleOnly | AllFields

  function ScopeOf(searchBy: string): Scope {
    if searchBy == "tags" then TagsOnly
    else if searchBy == "name" then TitleOnly
    else AllFields
  }

  /** Which records a caller may see under a visibility choice. */
  predicate Visible(v: Visibility, caller: UserId, p: Pdf) {
    match v
    case PublicOnly => p.isPublic
    case PrivateOnly => !p.isPublic && p.owner == caller
    case Everything => p.isPublic || p.owner == caller
  }

  predicate TitleHit(search: string, p: Pdf) {
    p.title.Some? && Matches(search, p.title.value)
  }

  predicate DescriptionHit(search: string, p: Pdf) {
    p.description.Some? && Matches(search, p.description.value)
  }

  predicate TagHit(terms: seq<string>, p: Pdf) {
    exists i, j :: 0 <= i < |terms| && 0 <= j < |p.tags| && Matches(terms[i], p.tags[j])
  }

  /** The search clause: none for an empty search; otherwise the whole
      string against the title (and description), and the comma-separated
      terms against the tags. */
  predicate SearchHit(search: string, scope: Scope, p: Pdf) {
    search == "" ||
    match scope
    case TagsOnly => TagHit(SearchTerms(search), p)
    case TitleOnly => TitleHit(search, p)
    case AllFields => TitleHit(search, p) || DescriptionHit(search, p) || TagHit(SearchTerms(search), p)
  }

  /** A record is selected when it passes both the search and the
      visibility clause. */
  predicate Selected(caller: UserId, params: Params, p: Pdf) {
    && SearchHit(params.search, ScopeOf(params.searchBy), p)
    && Visible(VisibilityOf(params.filter), caller, p)
  }

  // ---------------------------------------------------------------------
  // Proof that the built query means the declarative reading

  /** Assigning a property the object lacks appends it. */
  lemma {:induction false} AssignAppends(es: seq<Entry>, e: Entry)
    requires !HasKey(Doc(es), KeyOf(e))
    ensures Assign(es, e) == es + [e]
  {
    if |es| > 0 {
      assert KeyOf(es[0]) != KeyOf(e);
      assert !HasKey(Doc(es[1..]), KeyOf(e));
      AssignAppends(es[1..], e);
    }
  }

  lemma {:induction false} HoldsAppend(es: seq<Entry>, e: Entry, p: Pdf)
    ensures Holds(Doc(es + [e]), p) <==> Holds(Doc(es), p) && EntryHolds(e, p)
  {
    var d := Doc(es + [e]);
    assert d.entries[|es|] == e;
    assert forall i :: 0 <= i < |es| ==> d.entries[i] == es[i];
  }

  /** Adding a new property conjoins its condition and adds its key. */
  lemma {:induction false} SetFresh(d: Doc, e: Entry, p: Pdf)
    requires !HasKey(d, KeyOf(e))
    ensures Holds(Set(d, e), p) <==> Holds(d, p) && EntryHolds(e, p)
    ensures forall k :: HasKey(Set(d, e), k) <==> HasKey(d, k) || k == KeyOf(e)
  {
    AssignAppends(d.entries, e);
    HoldsAppend(d.entries, e, p);
    var r := Set(d, e);
    assert r.entries == d.entries + [e];
    forall k
      ensures HasKey(r, k) <==> HasKey(d, k) || k == KeyOf(e)
    {
      if HasKey(d, k) {
        var i :| 0 <= i < |d.entries| && KeyOf(d.entries[i]) == k;
        assert r.entries[i] == d.entries[i];
      }
      if k == KeyOf(e) {
        assert r.entries[|d.entries|] == e;
      }
      if HasKey(r, k) {
        var i :| 0 <= i < |r.entries| && KeyOf(r.entries[i]) == k;
        if i < |d.entries| {
          assert d.entries[i] == r.entries[i];
        }
      }
    }
  }

  lemma {:induction false} SingleEntry(e: Entry, p: Pdf)
    ensures Holds(Doc([e]), p) <==> EntryHolds(e, p)
  {
    assert Doc([e]).entries[0] == e;
  }

  /** The search object holds at most one property, keyed by `searchBy`. */
  lemma {:induction false} SearchDocKeys(params: Params)
    ensures !HasKey(SearchDoc(params), FieldKey(IsPublicField))
    ensures !HasKey(SearchDoc(params), FieldKey(OwnerField))
    ensures HasKey(SearchDoc(params), OrKey) <==>
      params.search != "" && ScopeOf(params.searchBy) == AllFields
  {
    if params.search != "" {
      var e := SearchEntry(params.search, SearchTerms(params.search), params.searchBy);
      assert SearchDoc(params) == Doc([e]);
      SingleKey(e);
      SearchEntryKey(params.search, SearchTerms(params.search), params.searchBy);
    }
  }

  lemma {:induction false} SearchEntryKey(search: string, terms: seq<string>, searchBy: string)
    ensures KeyOf(SearchEntry(search, terms, searchBy)) ==
      match ScopeOf(searchBy)
      case TagsOnly => FieldKey(TagsField)
      case TitleOnly => FieldKey(TitleField)
      case AllFields => OrKey
  {
  }

  lemma {:induction false} SingleKey(e: Entry)
    ensures forall k :: HasKey(Doc([e]), k) <==> k == KeyOf(e)
  {
    assert Doc([e]).entries[0] == e;
  }

  lemma {:induction false} RegexOnOptional(s: string, v: Option<string>, values: seq<string>)
    requires values == (if v.Some? then [v.value] else [])
    ensures SomeMatch([s], values) <==> v.Some? && Matches(s, v.value)
  {
    if v.Some? && Matches(s, v.value) {
      assert [s][0] == s && values[0] == v.value;
    }
  }

  lemma {:induction false} FieldMeaning(s: string, terms: seq<string>, p: Pdf)
    ensures EntryHolds(FieldEntry(TitleField, Regex(s)), p) <==> TitleHit(s, p)
    ensures EntryHolds(FieldEntry(DescriptionField, Regex(s)), p) <==> DescriptionHit(s, p)
    ensures EntryHolds(FieldEntry(TagsField, InRegex(terms)), p) <==> TagHit(terms, p)
  {
    RegexOnOptional(s, p.title, FieldValues(TitleField, p));
    RegexOnOptional(s, p.description, FieldValues(DescriptionField, p));
  }

  /** The search property admits what the search clause admits, for any
      list of terms. */
  lemma {:induction false} SearchEntryMeaning(search: string, terms: seq<string>, searchBy: string, p: Pdf)
    ensures EntryHolds(SearchEntry(search, terms, searchBy), p) <==>
      match ScopeOf(searchBy)
      case TagsOnly => TagHit(terms, p)
      case TitleOnly => TitleHit(search, p)
      case AllFields => TitleHit(search, p) || DescriptionHit(search, p) || TagHit(terms, p)
  {
    FieldMeaning(search, terms, p);
    if ScopeOf(searchBy) == AllFields {
      var title := Doc([FieldEntry(TitleField, Regex(search))]);
      var desc := Doc([FieldEntry(DescriptionField, Regex(search))]);
      var tags := Doc([FieldEntry(TagsField, InRegex(terms))]);
      SingleEntry(FieldEntry(TitleField, Regex(search)), p);
      SingleEntry(FieldEntry(DescriptionField, Regex(search)), p);
      SingleEntry(FieldEntry(TagsField, InRegex(terms)), p);
      var bs := [title, desc, tags];
      assert SearchEntry(search, terms, searchBy) == OrEntry(bs);
      assert bs[0] == title && bs[1] == desc && bs[2] == tags;
    }
  }

  /** The search object matches exactly the records the search clause admits. */
  lemma {:induction false} SearchDocMeaning(params: Params, p: Pdf)
    ensures Holds(SearchDoc(params), p) <==> SearchHit(params.search, ScopeOf(params.searchBy), p)
  {
    if params.search != "" {
      var terms := SearchTerms(params.search);
      var e := SearchEntry(params.search, terms, params.searchBy);
      assert SearchDoc(params) == Doc([e]);
      SingleEntry(e, p);
      SearchEntryMeaning(params.search, terms, params.searchBy, p);
    }
  }

  /** Spreading the access object into a search object without `$or`
      conjoins the two. */
  lemma {:induction false} SpreadAccess(query: Doc, caller: UserId, p: Pdf)
    requires !HasKey(query, OrKey)
    ensures Holds(Spread(query, AccessDoc(caller)), p) <==> Holds(query, p) && Holds(AccessDoc(caller), p)
  {
    var access := AccessDoc(caller);
    var e := access.entries[0];
    assert Spread(query, access) == Spread(Set(query, e), Doc([]));
    SetFresh(query, e, p);
    SingleEntry(e, p);
  }

  lemma {:induction false} AccessMeaning(caller: UserId, p: Pdf)
    ensures Holds(AccessDoc(caller), p) <==> p.isPublic || p.owner == caller
  {
    var pub := Doc([FieldEntry(IsPublicField, IsBool(true))]);
    var own := Doc([FieldEntry(OwnerField, IsUser(caller))]);
    SingleEntry(FieldEntry(IsPublicField, IsBool(true)), p);
    SingleEntry(FieldEntry(OwnerField, IsUser(caller)), p);
    var e := OrEntry([pub, own]);
    SingleEntry(e, p);
    assert [pub, own][0] == pub && [pub, own][1] == own;
  }

  /** Lines 96-97. */
  lemma {:induction false} PublicMeaning(query: Doc, p: Pdf)
    requires !HasKey(query, FieldKey(IsPublicField))
    ensures Holds(Set(query, FieldEntry(IsPublicField, IsBool(true))), p) <==> Holds(query, p) && p.isPublic
  {
    SetFresh(query, FieldEntry(IsPublicField, IsBool(true)), p);
  }

  /** Lines 98-100. */
  lemma {:induction false} PrivateMeaning(query: Doc, caller: UserId, p: Pdf)
    requires !HasKey(query, FieldKey(IsPublicField)) && !HasKey(query, FieldKey(OwnerField))
    ensures Holds(Set(Set(query, FieldEntry(IsPublicField, IsBool(false))), FieldEntry(OwnerField, IsUser(caller))), p)
      <==> Holds(query, p) && !p.isPublic && p.owner == caller
  {
    var priv := FieldEntry(IsPublicField, IsBool(false));
    SetFresh(query, priv, p);
    SetFresh(Set(query, priv), FieldEntry(OwnerField, IsUser(caller)), p);
  }

  lemma {:induction false} CombineAccessMeaning(query: Doc, caller: UserId, p: Pdf)
    ensures Holds(CombineAccess(query, caller), p) <==> Holds(query, p) && (p.isPublic || p.owner == caller)
  {
    AccessMeaning(caller, p);
    if HasKey(query, OrKey) {
      var both := AndEntry([query, AccessDoc(caller)]);
      SingleEntry(both, p);
      assert [query, AccessDoc(caller)][0] == query;
      assert [query, AccessDoc(caller)][1] == AccessDoc(caller);
    } else {
      SpreadAccess(query, caller, p);
    }
  }

  /** Why line 110 wraps the two objects in `$and`: spreading the access
      object into a search object that already holds `$or` overwrites the
      search, and the query would then match every visible record whatever
      the search says. */
  lemma {:induction false} SpreadOverwritesSearch(caller: UserId, params: Params)
    requires params.search != "" && ScopeOf(params.searchBy) == AllFields
    ensures Spread(SearchDoc(params), AccessDoc(caller)) == AccessDoc(caller)
    ensures var p := Pdf(PdfId(0), None, None, "", 0, caller, [], true, 0);
      Holds(Spread(SearchDoc(params), AccessDoc(caller)), p) && !SearchHit(params.search, AllFields, p)
  {
    SpreadReplacesOr(caller, params);
    var p := Pdf(PdfId(0), None, None, "", 0, caller, [], true, 0);
    AccessMeaning(caller, p);
    BareRecordMissesSearch(params.search, p);
  }

  lemma {:induction false} SpreadReplacesOr(caller: UserId, params: Params)
    requires params.search != "" && ScopeOf(params.searchBy) == AllFields
    ensures Spread(SearchDoc(params), AccessDoc(caller)) == AccessDoc(caller)
  {
    var access := AccessDoc(caller);
    var e := access.entries[0];
    var search := SearchEntry(params.search, SearchTerms(params.search), params.searchBy);
    assert SearchDoc(params) == Doc([search]);
    assert Spread(SearchDoc(params), access) == Spread(Set(SearchDoc(params), e), Doc([]));
    assert Set(SearchDoc(params), e) == access;
  }

  /** A record with no title, no description and no tags matches no search. */
  lemma {:induction false} BareRecordMissesSearch(search: string, p: Pdf)
    requires search != ""
    requires p.title.None? && p.description.None? && p.tags == []
    ensures !SearchHit(search, AllFields, p)
  {
  }
}

=== FILE: sorting.dfy ===
/** The sort step of `getPDFs` (pdf.controller.js lines 115-128): newest
    first by default, oldest first, or by title. */
module Sorting {
  import opened Types

  /** The `sort` parameter: "oldest", "name", and anything else. */
  datatype SortOrder = Newest | Oldest | ByName

  function SortOf(sort: string): SortOrder {
    if sort == "oldest" then Oldest
    else if sort == "name" then ByName
    else Newest
  }

  /** Ordinal string comparison, character by character; a proper prefix
      comes first. */
  predicate LexLe(a: string, b: string)
    decreases |a|
  {
    |a| == 0 || (|b| > 0 && (a[0] < b[0] || (a[0] == b[0] && LexLe(a[1..], b[1..]))))
  }

  /** Ascending order on a title that may be absent: the database orders a
      missing field before every string. */
  predicate TitleLe(a: Option<string>, b: Option<string>) {
    a.None? || (b.Some? && LexLe(a.value, b.value))
  }

  /** `a` may come before `b` in the requested order. */
  predicate Before(o: SortOrder, a: Pdf, b: Pdf) {
    match o
    case Newest => a.createdAt >= b.createdAt
    case Oldest => a.createdAt <= b.createdAt
    case ByName => TitleLe(a.title, b.title)
  }

  lemma {:induction false} LexTotal(a: string, b: string)
    ensures LexLe(a, b) || LexLe(b, a)
    decreases |a|
  {
    if |a| > 0 && |b| > 0 && a[0] == b[0] {
      LexTotal(a[1..], b[1..]);
    }
  }

  lemma {:induction false} LexTransitive(a: string, b: string, c: string)
    requires LexLe(a, b) && LexLe(b, c)
    ensures LexLe(a, c)
    decreases |a|
  {
    if |a| > 0 && a[0] == b[0] && b[0] == c[0] {
      LexTransitive(a[1..], b[1..], c[1..]);
    }
  }

  lemma {:induction false} LexAntisymmetric(a: string, b: string)
    requires LexLe(a, b) && LexLe(b, a)
    ensures a == b
    decreases |a|
  {
    if |a| > 0 {
      LexAntisymmetric(a[1..], b[1..]);
      assert a == [a[0]] + a[1..] && b == [b[0]] + b[1..];
    }
  }

  /** Every order compares any two records. */
  lemma BeforeTotal(o: SortOrder, a: Pdf, b: Pdf)
    ensures Before(o, a, b) || Before(o, b, a)
  {
    if o == ByName && a.title.Some? && b.title.Some? {
      LexTotal(a.title.value, b.title.value);
    }
  }

  /** Every order is transitive. */
  lemma BeforeTransitive(o: SortOrder, a: Pdf, b: Pdf, c: Pdf)
    requires Before(o, a, b) && Before(o, b, c)
    ensures Before(o, a, c)
  {
    if o == ByName && a.title.Some? {
      LexTransitive(a.title.value, b.title.value, c.title.value);
    }
  }

  /** Ordering by title orders equal-titled records only: two records that
      may each precede the other have the same title. */
  lemma ByNameTies(a: Pdf, b: Pdf)
    requires Before(ByName, a, b) && Before(ByName, b, a)
    ensures a.title == b.title
  {
    if a.title.Some? {
      LexAntisymmetric(a.title.value, b.title.value);
    }
  }

  /** Every record may precede every later one. */
  predicate Sorted(o: SortOrder, s: seq<Pdf>) {
    forall i, j :: 0 <= i < j < |s| ==> Before(o, s[i], s[j])
  }

  /** `x` inserted before the first record it may precede. */
  function Insert(o: SortOrder, x: Pdf, s: seq<Pdf>): (r: seq<Pdf>)
    requires Sorted(o, s)
    ensures multiset(r) == multiset(s) + multiset{x}
    ensures Sorted(o, r)
  {
    if |s| == 0 then [x]
    else if Before(o, x, s[0]) then
      PrependSorted(o, x, s);
      [x] + s
    else
      BeforeTotal(o, x, s[0]);
      var rest := Insert(o, x, s[1..]);
      assert multiset(s) == multiset{s[0]} + multiset(s[1..]) by {
        assert s == [s[0]] + s[1..];
      }
      HeadBeforeAll(o, s[0], x, s[1..], rest);
      ConsSorted(o, s[0], rest);
      [s[0]] + rest
  }

  lemma {:induction false} PrependSorted(o: SortOrder, x: Pdf, s: seq<Pdf>)
    requires Sorted(o, s) && |s| > 0 && Before(o, x, s[0])
    ensures Sorted(o, [x] + s)
  {
    forall j | 0 < j < |s|
      ensures Before(o, x, s[j])
    {
      BeforeTransitive(o, x, s[0], s[j]);
    }
    ConsSorted(o, x, s);
  }

  lemma {:induction false} ConsSorted(o: SortOrder, h: Pdf, s: seq<Pdf>)
    requires Sorted(o, s)
    requires forall j :: 0 <= j < |s| ==> Before(o, h, s[j])
    ensures Sorted(o, [h] + s)
  {
    var r := [h] + s;
    forall i, j | 0 <= i < j < |r|
      ensures Before(o, r[i], r[j])
    {
      if i == 0 {
        assert r[j] == s[j - 1];
      } else {
        assert r[i] == s[i - 1] && r[j] == s[j - 1];
      }
    }
  }

  /** A record that may precede every element of `t` and `x` may precede
      every element of any rearrangement of them. */
  lemma {:induction false} HeadBeforeAll(o: SortOrder, h: Pdf, x: Pdf, t: seq<Pdf>, r: seq<Pdf>)
    requires Sorted(o, [h] + t)
    requires Before(o, h, x)
    requires multiset(r) == multiset(t) + multiset{x}
    ensures forall j :: 0 <= j < |r| ==> Before(o, h, r[j])
  {
    forall j | 0 <= j < |r|
      ensures Before(o, h, r[j])
    {
      var y := r[j];
      assert y in multiset(r);
      if y != x {
        assert y in multiset(t);
        var k :| 0 <= k < |t| && t[k] == y;
        assert ([h] + t)[0] == h && ([h] + t)[k + 1] == y;
      }
    }
  }

  /** Insertion sort: a rearrangement of `s` in the requested order. */
  function SortBy(o: SortOrder, s: seq<Pdf>): (r: seq<Pdf>)
    ensures multiset(r) == multiset(s)
    ensures Sorted(o, r)
  {
    if |s| == 0 then []
    else
      assert s == [s[0]] + s[1..];
      Insert(o, s[0], SortBy(o, s[1..]))
  }
}

=== FILE: tags.dfy ===
/** Comma-separated lists typed by users: the `tags` field of an upload
    (pdf.controller.js line 42) and the terms of a list search (line 75). */
module Tags {
  import opened Types
  import opened Text

  /** `xs.map(x => x.trim())`. */
  function TrimAll(xs: seq<string>): (r: seq<string>)
    ensures |r| == |xs|
    ensures forall i :: 0 <= i < |xs| ==> r[i] == Trim(xs[i])
  {
    if |xs| == 0 then [] else [Trim(xs[0])] + TrimAll(xs[1..])
  }

  /** `tags ? tags.split(',').map(tag => tag.trim()) : []` on a multipart
      field: absent or empty gives no tags, anything else one tag per
      comma-separated piece, each trimmed, empty pieces kept. */
  function ParseTags(tags: Option<string>): (r: seq<string>)
    ensures tags.None? || tags == Some("") ==> r == []
    ensures tags.Some? && tags.value != "" ==> |r| == Count(tags.value, ',') + 1
    ensures forall i :: 0 <= i < |r| ==> IsTrimmed(r[i])
  {
    match tags
    case None => []
    case Some(s) => if s == "" then [] else TrimAll(Split(s, ','))
  }

  /** Every parsed tag is the trimmed text of the matching comma-separated
      piece of the field. */
  lemma {:induction false} ParseTagsPieces(s: string)
    requires s != ""
    ensures var r := ParseTags(Some(s));
      forall i :: 0 <= i < |r| ==> r[i] == Trim(Split(s, ',')[i])
  {
  }

  lemma {:induction false} TrimAllCons(a: string, t: seq<string>)
    ensures TrimAll([a] + t) == [Trim(a)] + TrimAll(t)
  {
  }

  /** A tag the edit form can show and the upload parser returns unchanged:
      no comma, no surrounding whitespace. */
  predicate Clean(t: string) {
    ',' !in t && IsTrimmed(t)
  }

  predicate AllClean(xs: seq<string>) {
    |xs| == 0 || (Clean(xs[0]) && AllClean(xs[1..]))
  }

  lemma {:induction false} AllCleanAt(xs: seq<string>)
    requires forall i :: 0 <= i < |xs| ==> Clean(xs[i])
    ensures AllClean(xs)
  {
    if |xs| > 0 {
      AllCleanAt(xs[1..]);
    }
  }

  /** Splitting and trimming `xs.join(', ')` gives back `xs` when no element
      holds a comma or surrounding whitespace. */
  lemma {:induction false} TrimSplitJoin(xs: seq<string>)
    requires |xs| > 0
    requires AllClean(xs)
    ensures TrimAll(Split(Join(xs, ", "), ',')) == xs
  {
    if |xs| == 1 {
      TrimSplitJoinSingle(xs[0]);
      assert xs == [xs[0]];
    } else {
      TrimSplitJoin(xs[1..]);
      TrimSplitJoinStep(xs);
      ConsParts(xs);
    }
  }

  lemma {:induction false} ConsParts(xs: seq<string>)
    requires |xs| > 0
    ensures [xs[0]] + xs[1..] == xs
  {
  }

  lemma {:induction false} TrimSplitJoinSingle(a: string)
    requires Clean(a)
    ensures TrimAll(Split(Join([a], ", "), ',')) == [a]
  {
    TrimFixpoint(a);
    assert Join([a], ", ") == a;
    SplitWithoutSeparator(a, ',');
    assert TrimAll([a]) == [Trim(a)];
  }

  /** One step of the round trip: the first element comes out unchanged and
      the rest is parsed as the join of the remaining elements. */
  lemma {:induction false} TrimSplitJoinStep(xs: seq<string>)
    requires |xs| > 1
    requires ',' !in xs[0] && IsTrimmed(xs[0])
    ensures TrimAll(Split(Join(xs, ", "), ',')) == [xs[0]] + TrimAll(Split(Join(xs[1..], ", "), ','))
  {
    var a := xs[0];
    TrimFixpoint(a);
    var j := Join(xs[1..], ", ");
    var pieces := Split(j, ',');
    var tail := [[' '] + pieces[0]] + pieces[1..];
    assert Join(xs, ", ") == a + ", " + j;
    JoinedHead(a, j, tail);
    Combine(Split(Join(xs, ", "), ','), a, pieces);
  }

  lemma {:induction false} Combine(whole: seq<string>, a: string, pieces: seq<string>)
    requires |pieces| > 0
    requires whole == [a] + ([[' '] + pieces[0]] + pieces[1..])
    requires Trim(a) == a
    ensures TrimAll(whole) == [a] + TrimAll(pieces)
  {
    TrimAllCons(a, [[' '] + pieces[0]] + pieces[1..]);
    BlankedHead(pieces);
  }

  /** A blank in front of the first piece is trimmed away again. */
  lemma {:induction false} BlankedHead(pieces: seq<string>)
    requires |pieces| > 0
    ensures TrimAll([[' '] + pieces[0]] + pieces[1..]) == TrimAll(pieces)
  {
    TrimLeadingSpace(' ', pieces[0]);
  }

  /** The split of `a + ", " + j` is `a` followed by the pieces of `j`,
      the first of them carrying the blank. */
  lemma {:induction false} JoinedHead(a: string, j: string, tail: seq<string>)
    requires ',' !in a
    requires tail == [[' '] + Split(j, ',')[0]] + Split(j, ',')[1..]
    ensures Split(a + ", " + j, ',') == [a] + tail
  {
    assert a + ", " + j == a + [','] + ([' '] + j);
    SplitAtSeparator(a, [' '] + j, ',');
    SplitPrefix([' '], j, ',');
  }

  /** The edit form shows the tags as `tags.join(', ')` (Dashboard.jsx line
      322); parsing that text recovers the list, except for the single empty
      tag, whose joined text is empty. */
  lemma {:induction false} ParseJoinedTags(xs: seq<string>)
    requires xs != [""]
    requires forall i :: 0 <= i < |xs| ==> ',' !in xs[i] && IsTrimmed(xs[i])
    ensures ParseTags(Some(Join(xs, ", "))) == xs
  {
    if |xs| > 0 {
      AllCleanAt(xs);
      TrimSplitJoin(xs);
      if |xs| > 1 {
        assert |Join(xs, ", ")| >= 2;
      } else {
        assert Join(xs, ", ") == xs[0] != "";
      }
    }
  }

  /** `xs.filter(Boolean)` on strings: the non-empty ones, in order. */
  function NonEmpty(xs: seq<string>): (r: seq<string>)
    ensures |r| <= |xs|
    ensures forall i :: 0 <= i < |r| ==> r[i] != ""
  {
    if |xs| == 0 then []
    else if xs[0] == "" then NonEmpty(xs[1..])
    else [xs[0]] + NonEmpty(xs[1..])
  }

  /** `filter(Boolean)` keeps exactly the non-empty elements. */
  lemma {:induction false} NonEmptyMembers(xs: seq<string>, t: string)
    ensures t in NonEmpty(xs) <==> t in xs && t != ""
  {
    if |xs| > 0 {
      NonEmptyMembers(xs[1..], t);
      assert xs == [xs[0]] + xs[1..];
    }
  }

  /** `search.split(',').map(term => term.trim()).filter(Boolean)`: only
      non-empty, trimmed terms, at most one per comma-separated piece. */
  function SearchTerms(search: string): (r: seq<string>)
    ensures |r| <= Count(search, ',') + 1
    ensures forall i :: 0 <= i < |r| ==> r[i] != "" && IsTrimmed(r[i])
  {
    var trimmed := TrimAll(Split(search, ','));
    NonEmptyTrimmed(trimmed);
    NonEmpty(trimmed)
  }

  lemma {:induction false} NonEmptyTrimmed(xs: seq<string>)
    requires forall i :: 0 <= i < |xs| ==> IsTrimmed(xs[i])
    ensures forall i :: 0 <= i < |NonEmpty(xs)| ==> IsTrimmed(NonEmpty(xs)[i])
  {
    if |xs| > 0 {
      NonEmptyTrimmed(xs[1..]);
    }
  }

  /** `t` is the non-empty trimmed text of one of the `pieces`. */
  predicate TrimsFromPiece(pieces: seq<string>, t: string) {
    t != "" && exists i :: 0 <= i < |pieces| && t == Trim(pieces[i])
  }

  /** A term is exactly the non-empty trimmed text of some comma-separated
      piece of the search string. */
  lemma {:induction false} SearchTermsPieces(search: string, t: string)
    ensures t in SearchTerms(search) <==> TrimsFromPiece(Split(search, ','), t)
  {
    assert SearchTerms(search) == NonEmpty(TrimAll(Split(search, ',')));
    TrimmedNonEmptyMembers(Split(search, ','), t);
  }

  lemma {:induction false} TrimmedNonEmptyMembers(pieces: seq<string>, t: string)
    ensures t in NonEmpty(TrimAll(pieces)) <==> TrimsFromPiece(pieces, t)
  {
    var trimmed := TrimAll(pieces);
    NonEmptyMembers(trimmed, t);
    if t in trimmed {
      var i :| 0 <= i < |trimmed| && trimmed[i] == t;
      assert t == Trim(pieces[i]);
    }
    if TrimsFromPiece(pieces, t) {
      var i :| 0 <= i < |pieces| && t == Trim(pieces[i]);
      assert trimmed[i] == t;
    }
  }

  /** A comma-free search with some non-blank text is the single term it
      trims to. */
  lemma {:induction false} SingleSearchTerm(search: string)
    requires ',' !in search
    requires Trim(search) != ""
    ensures SearchTerms(search) == [Trim(search)]
  {
    SplitPrefix(search, "", ',');
    assert search + "" == search;
    assert Split(search, ',') == [search];
    assert TrimAll([search]) == [Trim(search)];
  }

  /** A blank search string (only commas and whitespace) has no terms. */
  lemma {:induction false} BlankSearchHasNoTerms(search: string)
    requires forall i :: 0 <= i < |search| ==> search[i] == ',' || IsSpace(search[i])
    ensures SearchTerms(search) == []
  {
    var pieces := Split(search, ',');
    forall i | 0 <= i < |pieces|
      ensures Trim(pieces[i]) == ""
    {
      BlankPieceTrimsEmpty(search, i);
    }
    var trimmed := TrimAll(pieces);
    if SearchTerms(search) != [] {
      var t := SearchTerms(search)[0];
      NonEmptyMembers(trimmed, t);
    }
  }

  lemma {:induction false} BlankPieceTrimsEmpty(s: string, i: nat)
    requires forall k :: 0 <= k < |s| ==> s[k] == ',' || IsSpace(s[k])
    requires i < |Split(s, ',')|
    ensures Trim(Split(s, ',')[i]) == ""
  {
    var piece := Split(s, ',')[i];
    AllSpacePieces(s);
    AllSpaceTrimsEmpty(piece);
  }

  lemma {:induction false} AllSpacePieces(s: string)
    requires forall k :: 0 <= k < |s| ==> s[k] == ',' || IsSpace(s[k])
    ensures forall i, k :: 0 <= i < |Split(s, ',')| && 0 <= k < |Split(s, ',')[i]| ==> IsSpace(Split(s, ',')[i][k])
  {
    if |s| > 0 {
      AllSpacePieces(s[1..]);
    }
  }

  lemma {:induction false} AllSpaceTrimsEmpty(s: string)
    requires forall k :: 0 <= k < |s| ==> IsSpace(s[k])
    ensures Trim(s) == ""
  {
    TrimIsCore(s);
  }
}

=== FILE: text.dfy ===
/** The JavaScript string operations the controllers rely on:
    `String.prototype.split` with a one-character separator, `trim`,
    `Array.prototype.join`, and case-insensitive matching of a pattern. */
module Text {

  /** ECMAScript WhiteSpace and LineTerminator code points, the set `trim` removes. */
  predicate IsSpace(c: char) {
    || c == '\t' || c == '\n' || c == '\U{B}' || c == '\U{C}' || c == '\r'
    || c == ' ' || c == '\U{A0}' || c == '\U{1680}'
    || ('\U{2000}' <= c <= '\U{200A}')
    || c == '\U{2028}' || c == '\U{2029}' || c == '\U{202F}' || c == '\U{205F}'
    || c == '\U{3000}' || c == '\U{FEFF}'
  }

  /** Number of occurrences of `c` in `s`. */
  function Count(s: string, c: char): nat
  {
    if |s| == 0 then 0 else (if s[0] == c then 1 else 0) + Count(s[1..], c)
  }

  // ---------------------------------------------------------------------
  // split / join

  /** `s.split(sep)`: the maximal separator-free pieces, empty pieces kept. */
  function Split(s: string, sep: char): (r: seq<string>)
    ensures |r| == Count(s, sep) + 1
  {
    if |s| == 0 then [""]
    else
      var rest := Split(s[1..], sep);
      if s[0] == sep then [""] + rest
      else [[s[0]] + rest[0]] + rest[1..]
  }

  /** No piece of a split holds the separator. */
  lemma {:induction false} SplitPiecesLackSeparator(s: string, sep: char)
    ensures forall i :: 0 <= i < |Split(s, sep)| ==> sep !in Split(s, sep)[i]
  {
    if |s| > 0 {
      SplitPiecesLackSeparator(s[1..], sep);
    }
  }

  /** `xs.join(sep)`. */
  function Join(xs: seq<string>, sep: string): string
  {
    if |xs| == 0 then ""
    else if |xs| == 1 then xs[0]
    else xs[0] + sep + Join(xs[1..], sep)
  }

  /** Joining the pieces of a split with the separator restores the string. */
  lemma {:induction false} JoinSplit(s: string, sep: char)
    ensures Join(Split(s, sep), [sep]) == s
  {
    if |s| > 0 {
      var rest := Split(s[1..], sep);
      JoinSplit(s[1..], sep);
      if s[0] == sep {
        assert Split(s, sep) == [""] + rest;
        JoinCons("", rest, [sep]);
      } else {
        assert Split(s, sep) == [[s[0]] + rest[0]] + rest[1..];
        JoinHeadExtend(s[0], rest, [sep]);
      }
      assert s == [s[0]] + s[1..];
    }
  }

  lemma {:induction false} JoinCons(a: string, t: seq<string>, sep: string)
    requires |t| > 0
    ensures Join([a] + t, sep) == a + sep + Join(t, sep)
  {
    assert ([a] + t)[1..] == t;
  }

  /** Extending the first piece extends the joined text at its front. */
  lemma {:induction false} JoinHeadExtend(c: char, pieces: seq<string>, sep: string)
    requires |pieces| > 0
    ensures Join([[c] + pieces[0]] + pieces[1..], sep) == [c] + Join(pieces, sep)
  {
    var head := [c] + pieces[0];
    var tail := pieces[1..];
    if |tail| == 0 {
      assert [head] + tail == [head];
    } else {
      JoinCons(head, tail, sep);
      JoinCons(pieces[0], tail, sep);
      assert pieces == [pieces[0]] + tail;
    }
  }

  /** A separator-free prefix extends the first piece of the split. */
  lemma {:induction false} SplitPrefix(a: string, t: string, sep: char)
    requires sep !in a
    ensures Split(a + t, sep) == [a + Split(t, sep)[0]] + Split(t, sep)[1..]
  {
    var pieces := Split(t, sep);
    if |a| == 0 {
      assert a + t == t;
      assert a + pieces[0] == pieces[0];
      assert pieces == [pieces[0]] + pieces[1..];
    } else {
      var u := a + t;
      assert u[0] == a[0] && u[1..] == a[1..] + t;
      SplitPrefix(a[1..], t, sep);
      var rest := Split(u[1..], sep);
      assert rest[0] == a[1..] + pieces[0] && rest[1..] == pieces[1..];
      assert Split(u, sep) == [[a[0]] + rest[0]] + rest[1..];
      assert [a[0]] + (a[1..] + pieces[0]) == a + pieces[0];
    }
  }

  /** A string without the separator splits into itself. */
  lemma {:induction false} SplitWithoutSeparator(a: string, sep: char)
    requires sep !in a
    ensures Split(a, sep) == [a]
  {
    if |a| > 0 {
      SplitWithoutSeparator(a[1..], sep);
      assert [a[0]] + a[1..] == a;
    }
  }

  /** A separator-free prefix followed by the separator is a piece of its own. */
  lemma {:induction false} SplitAtSeparator(a: string, t: string, sep: char)
    requires sep !in a
    ensures Split(a + [sep] + t, sep) == [a] + Split(t, sep)
  {
    var u := [sep] + t;
    assert a + [sep] + t == a + u;
    SplitPrefix(a, u, sep);
    assert u[1..] == t;
    assert Split(u, sep) == [""] + Split(t, sep);
    assert a + "" == a;
  }

  /** Splitting a join of separator-free pieces recovers the pieces. */
  lemma {:induction false} SplitJoin(xs: seq<string>, sep: char)
    requires |xs| > 0
    requires forall i :: 0 <= i < |xs| ==> sep !in xs[i]
    ensures Split(Join(xs, [sep]), sep) == xs
  {
    if |xs| == 1 {
      SplitPrefix(xs[0], "", sep);
      assert xs[0] + "" == xs[0];
    } else {
      SplitJoin(xs[1..], sep);
      SplitAtSeparator(xs[0], Join(xs[1..], [sep]), sep);
      assert xs == [xs[0]] + xs[1..];
    }
  }

  // ---------------------------------------------------------------------
  // trim

  function TrimStart(s: string): (r: string)
    ensures |r| <= |s| && r == s[|s| - |r|..]
    ensures |r| > 0 ==> !IsSpace(r[0])
  {
    if |s| > 0 && IsSpace(s[0]) then TrimStart(s[1..]) else s
  }

  function TrimEnd(s: string): (r: string)
    ensures |r| <= |s| && r == s[..|r|]
    ensures |r| > 0 ==> !IsSpace(r[|r| - 1])
  {
    if |s| > 0 && IsSpace(s[|s| - 1]) then TrimEnd(s[..|s| - 1]) else s
  }

  /** `s.trim()`. */
  function Trim(s: string): (r: string)
    ensures IsTrimmed(r)
  {
    TrimEnd(TrimStart(s))
  }

  /** A string that `trim` leaves as it is. */
  predicate IsTrimmed(s: string) {
    |s| == 0 || (!IsSpace(s[0]) && !IsSpace(s[|s| - 1]))
  }

  /** Everything `TrimStart` drops is whitespace. */
  lemma {:induction false} TrimStartDropsSpaces(s: string)
    ensures forall i :: 0 <= i < |s| - |TrimStart(s)| ==> IsSpace(s[i])
  {
    if |s| > 0 && IsSpace(s[0]) {
      TrimStartDropsSpaces(s[1..]);
    }
  }

  /** Everything `TrimEnd` drops is whitespace. */
  lemma {:induction false} TrimEndDropsSpaces(s: string)
    ensures forall i :: |TrimEnd(s)| <= i < |s| ==> IsSpace(s[i])
  {
    if |s| > 0 && IsSpace(s[|s| - 1]) {
      TrimEndDropsSpaces(s[..|s| - 1]);
    }
  }

  /** `s[i..j]` lies between a whitespace prefix and a whitespace suffix of `s`. */
  predicate Core(s: string, i: int, j: int) {
    && 0 <= i <= j <= |s|
    && (forall k :: 0 <= k < i ==> IsSpace(s[k]))
    && (forall k :: j <= k < |s| ==> IsSpace(s[k]))
  }

  /** `trim` removes only whitespace, from both ends. */
  lemma {:induction false} TrimIsCore(s: string)
    ensures exists i, j :: Core(s, i, j) && Trim(s) == s[i..j]
  {
    var a := TrimStart(s);
    var i := |s| - |a|;
    var r := TrimEnd(a);
    TrimStartDropsSpaces(s);
    TrimEndDropsSpaces(a);
    SuffixSpaces(s, a, i, |r|);
    assert Trim(s) == s[i..i + |r|] by {
      assert a == s[i..];
      assert r == a[..|r|];
    }
    assert Core(s, i, i + |r|);
  }

  lemma {:induction false} SuffixSpaces(s: string, a: string, i: nat, n: nat)
    requires i <= |s| && a == s[i..] && n <= |a|
    requires forall k :: n <= k < |a| ==> IsSpace(a[k])
    ensures forall k :: i + n <= k < |s| ==> IsSpace(s[k])
  {
    forall k | i + n <= k < |s|
      ensures IsSpace(s[k])
    {
      assert s[k] == a[k - i];
    }
  }

  /** `trim` is the identity exactly on trimmed strings. */
  lemma {:induction false} TrimFixpoint(s: string)
    ensures Trim(s) == s <==> IsTrimmed(s)
  {
    if IsTrimmed(s) && |s| > 0 {
      assert TrimStart(s) == s;
      assert TrimEnd(s) == s;
    }
  }

  /** Leading whitespace never survives `trim`. */
  lemma {:induction false} TrimLeadingSpace(c: char, s: string)
    requires IsSpace(c)
    ensures Trim([c] + s) == Trim(s)
  {
    assert ([c] + s)[1..] == s;
  }

  // ---------------------------------------------------------------------
  // case-insensitive matching

  /** ASCII upper-case letters folded to lower case. */
  function Lower(c: char): (r: char)
    ensures 'A' <= c <= 'Z' ==> 'a' <= r <= 'z' && r as int == c as int + 32
    ensures !('A' <= c <= 'Z') ==> r == c
  {
    if 'A' <= c <= 'Z' then (c as int + 32) as char else c
  }

  function LowerAll(s: string): (r: string)
    ensures |r| == |s|
    ensures forall i :: 0 <= i < |s| ==> r[i] == Lower(s[i])
  {
    if |s| == 0 then "" else [Lower(s[0])] + LowerAll(s[1..])
  }

  /** `p` occurs in `t` starting at position 0. */
  predicate IsPrefix(p: string, t: string) {
    |p| <= |t| && t[..|p|] == p
  }

  /** `p` occurs somewhere in `t`. */
  predicate IsInfix(p: string, t: string)
    decreases |t|
  {
    IsPrefix(p, t) || (|t| > 0 && IsInfix(p, t[1..]))
  }

  /** `p` occurs in `t` at position `k`. */
  predicate OccursAt(p: string, t: string, k: int) {
    0 <= k <= |t| - |p| && t[k..k + |p|] == p
  }

  /** The left-to-right search succeeds exactly when `p` occurs at some position. */
  lemma {:induction false} IsInfixAt(p: string, t: string)
    ensures IsInfix(p, t) <==> exists k :: OccursAt(p, t, k)
    decreases |t|
  {
    if IsPrefix(p, t) {
      assert OccursAt(p, t, 0);
    } else if |t| > 0 {
      IsInfixAt(p, t[1..]);
      if IsInfix(p, t[1..]) {
        var k :| OccursAt(p, t[1..], k);
        assert t[k + 1..k + 1 + |p|] == t[1..][k..k + |p|];
        assert OccursAt(p, t, k + 1);
      }
      if exists k :: OccursAt(p, t, k) {
        var k :| OccursAt(p, t, k);
        assert k != 0;
        assert t[1..][k - 1..k - 1 + |p|] == t[k..k + |p|];
        assert OccursAt(p, t[1..], k - 1);
      }
    }
  }

  /** `new RegExp(pattern, 'i').test(text)`, read as a case-insensitive
      literal search (metacharacters are not interpreted). */
  predicate Matches(pattern: string, text: string) {
    IsInfix(LowerAll(pattern), LowerAll(text))
  }
}

=== FILE: types.dfy ===
/** The persisted entities of the gallery backend and the reply shapes its
    handlers produce. */
module Types {

  datatype Option<+T> = None | Some(value: T) {
    function GetOr(default: T): T {
      match this
      case Some(v) => v
      case None => default
    }
  }

  /** The HTTP statuses the controllers answer with: 200, 400, 403, 404 and
      500. The 201 of a successful upload is its `Success` reply. */
  datatype Status = Ok | BadRequest | Forbidden | NotFound | ServerError

  /** A handler's reply: a value on success, otherwise the error status. */
  datatype Result<+T> = Success(value: T) | Failure(status: Status)

  /** Database object identifiers (compared by value, as `toString()` does). */
  datatype UserId = UserId(oid: nat)
  datatype PdfId = PdfId(oid: nat)

  /** The `:id` path parameter after the database driver casts it to an
      object identifier: `None` when the text is not a well-formed one, in
      which case `findById` throws. */
  type IdParam = Option<PdfId>

  /** A user account; `password` holds the salted hash, never the plain text. */
  datatype User = User(id: UserId, username: string, email: string, password: string)

  /** A PDF metadata record. `title` and `description` are copied from the
      multipart body and may be absent; `filePath`, `fileSize`, `owner`
      (the `uploadedBy` reference) and `createdAt` are set at upload. */
  datatype Pdf = Pdf(
    id: PdfId,
    title: Option<string>,
    description: Option<string>,
    filePath: string,
    fileSize: nat,
    owner: UserId,
    tags: seq<string>,
    isPublic: bool,
    createdAt: int)

  /** The PDF collection, in the database's natural order. */
  type Store = seq<Pdf>

  /** The user collection keyed by identifier. */
  type Users = map<UserId, User>

  /** A request body or query string: field name to string value. */
  type Fields = map<string, string>

  function Lookup(f: Fields, key: string): (r: Option<string>)
    ensures r.Some? <==> key in f
    ensures r.Some? ==> r.value == f[key]
  {
    if key in f then Some(f[key]) else None
  }
}

=== FILE: usercontroller.dfy ===
/** The handlers of user.controller.js: the profile with its upload
    statistics, and changing the password. Password hashing is a parameter:
    `hash(password, salt)` and `matches(password, hashed)` stand for the
    library's `hash` and `compare`, and the salt it generates is an input. */
module UserController {
  import opened Types
  import opened Collection
  import PdfController

  // ---------------------------------------------------------------------
  // getProfile (lines 6-50)

  /** The accumulators of the `$group` stage (lines 14-28). */
  datatype Stats = Stats(totalPDFs: nat, totalStorage: nat, publicPDFs: nat, privatePDFs: nat)

  /** Lines 32-37: the statistics of a user with no uploads. */
  const NoStats := Stats(0, 0, 0, 0)

  function Add(a: Stats, b: Stats): Stats {
    Stats(a.totalPDFs + b.totalPDFs, a.totalStorage + b.totalStorage,
          a.publicPDFs + b.publicPDFs, a.privatePDFs + b.privatePDFs)
  }

  /** What one record adds: itself, its size, and one to the public or the
      private count. */
  function One(p: Pdf): Stats {
    Stats(1, p.fileSize, if p.isPublic then 1 else 0, if p.isPublic then 0 else 1)
  }

  /** The `$group` stage over all its input records. Every record is public
      or private, so the two counts partition the total. */
  function Tally(ps: seq<Pdf>): (r: Stats)
    ensures r.totalPDFs == |ps|
    ensures r.publicPDFs + r.privatePDFs == r.totalPDFs
  {
    if |ps| == 0 then NoStats else Add(One(ps[0]), Tally(ps[1..]))
  }

  /** Lines 11-30: `$match` on the uploader, then one group over what
      matched; no group at all when nothing matched. */
  function Aggregate(store: Store, u: UserId): (r: seq<Stats>)
    ensures |r| <= 1
    ensures r == [] <==> Owned(store, u) == []
  {
    var owned := Owned(store, u);
    if owned == [] then [] else [Tally(owned)]
  }

  /** Lines 32-37: `pdfStats[0] || { ...zeros }`: the group when there is
      one, four zeros otherwise. */
  function StatsOf(store: Store, u: UserId): (r: Stats)
    ensures Owned(store, u) == [] ==> r == NoStats
    ensures r.totalPDFs == |Owned(store, u)|
    ensures r.publicPDFs + r.privatePDFs == r.totalPDFs
  {
    var groups := Aggregate(store, u);
    if |groups| == 0 then NoStats else groups[0]
  }

  /** The default of lines 32-37 is what a group over no records would
      hold, so the statistics are always the tally of the user's records. */
  lemma {:induction false} StatsAreTally(store: Store, u: UserId)
    ensures StatsOf(store, u) == Tally(Owned(store, u))
    ensures StatsOf(store, u).totalPDFs == |Owned(store, u)|
  {
  }

  /** Lines 32-37: a user with no records gets four zeros. */
  lemma {:induction false} NoRecordsNoStats(store: Store, u: UserId)
    requires forall p :: p in store ==> p.owner != u
    ensures StatsOf(store, u) == NoStats
  {
    OwnedEmpty(store, u);
  }

  /** Lines 18-27: `publicPDFs` counts the records whose `isPublic` is
      true and `privatePDFs` those whose `isPublic` is false. */
  lemma {:induction false} TallyCounts(ps: seq<Pdf>)
    ensures Tally(ps).publicPDFs == |Select(ps, FlagQuery(true))|
    ensures Tally(ps).privatePDFs == |Select(ps, FlagQuery(false))|
  {
    if |ps| > 0 {
      TallyCounts(ps[1..]);
      FlagQueryMeaning(true, ps[0]);
      FlagQueryMeaning(false, ps[0]);
    }
  }

  lemma {:induction false} TallyAppend(a: seq<Pdf>, b: seq<Pdf>)
    ensures Tally(a + b) == Add(Tally(a), Tally(b))
    decreases |a|
  {
    if |a| > 0 {
      assert (a + b)[0] == a[0];
      assert (a + b)[1..] == a[1..] + b;
      TallyAppend(a[1..], b);
    } else {
      assert a + b == b;
    }
  }

  /** The statistics do not depend on the order the database returns the
      records in. */
  lemma {:induction false} TallyPermutation(a: seq<Pdf>, b: seq<Pdf>)
    requires multiset(a) == multiset(b)
    ensures Tally(a) == Tally(b)
    decreases |a|
  {
    if |a| > 0 {
      var x := a[0];
      assert x in multiset(b);
      var i :| 0 <= i < |b| && b[i] == x;
      var rest := b[..i] + b[i + 1..];
      assert b == b[..i] + [x] + b[i + 1..];
      assert a == [x] + a[1..];
      assert multiset(b) == multiset(b[..i]) + multiset{x} + multiset(b[i + 1..]);
      assert multiset(rest) == multiset(b[..i]) + multiset(b[i + 1..]);
      assert multiset(a) == multiset{x} + multiset(a[1..]);
      assert multiset(a[1..]) == multiset(a) - multiset{x};
      assert multiset(rest) == multiset(b) - multiset{x};
      TallyPermutation(a[1..], rest);
      TallyRemove(b, i);
    }
  }

  /** Taking one record out of the middle takes exactly its share out. */
  lemma {:induction false} TallyRemove(b: seq<Pdf>, i: nat)
    requires i < |b|
    ensures Tally(b) == Add(One(b[i]), Tally(b[..i] + b[i + 1..]))
  {
    assert b == b[..i] + b[i..];
    TallyAppend(b[..i], b[i..]);
    assert b[i..][1..] == b[i + 1..];
    TallyAppend(b[..i], b[i + 1..]);
  }

  /** Line 43: the storage in MiB rounded to two decimals, as a whole number
      of hundredths: `Math.round(bytes / 1024 / 1024 * 100)`. */
  function HundredthsOfMiB(bytes: nat): (r: nat)
    ensures r * 1048576 <= bytes * 100 + 524288 < (r + 1) * 1048576
  {
    (bytes * 100 + 524288) / 1048576
  }

  /** The rounding is to the nearest hundredth. */
  lemma {:induction false} HundredthsNearest(bytes: nat)
    ensures var r := HundredthsOfMiB(bytes);
      -524288 < r * 1048576 - bytes * 100 <= 524288
  {
  }

  /** The user without the password (`select('-password')`). */
  datatype PublicUser = PublicUser(id: UserId, username: string, email: string)

  /** The `stats` of the reply: `grouped` records whether the `_id: null`
      key of the group (line 15) came along in the spread. */
  datatype StatsReply = StatsReply(grouped: bool, totalPDFs: nat, totalStorage: nat, publicPDFs: nat, privatePDFs: nat)

  datatype Profile = Profile(user: PublicUser, stats: StatsReply)

  /** The reply of `getProfile`; a missing user fails at `user._id`
      (line 12) with 500. */
  function GetProfile(users: Users, store: Store, caller: UserId): (r: Result<Profile>)
    ensures r.Failure? <==> caller !in users
    ensures r.Failure? ==> r.status == ServerError
    ensures r.Success? ==>
      r.value.user == PublicUser(caller, users[caller].username, users[caller].email)
    ensures r.Success? ==>
      var owned := Owned(store, caller);
      var s := r.value.stats;
      && (s.grouped <==> owned != [])
      && s.totalPDFs == |owned| == s.publicPDFs + s.privatePDFs
      && s.publicPDFs == Tally(owned).publicPDFs
      && s.privatePDFs == Tally(owned).privatePDFs
      && s.totalStorage == HundredthsOfMiB(Tally(owned).totalStorage)
  {
    if caller !in users then Failure(ServerError)
    else
      var user := users[caller];
      var stats := StatsOf(store, caller);
      StatsAreTally(store, caller);
      Success(Profile(
        PublicUser(caller, user.username, user.email),
        StatsReply(Aggregate(store, caller) != [], stats.totalPDFs, HundredthsOfMiB(stats.totalStorage),
                   stats.publicPDFs, stats.privatePDFs)))
  }

  /** An upload counts towards its uploader's statistics at once, with its
      size and visibility, and towards no one else's. */
  lemma {:induction false} UploadCounts(store: Store, caller: UserId, f: PdfController.UploadedFile, body: Fields,
                     id: PdfId, now: int, accepts: Pdf -> bool, u: UserId)
    requires PdfController.Upload(store, caller, Some(f), body, id, now, accepts).0.Success?
    ensures var (res, after) := PdfController.Upload(store, caller, Some(f), body, id, now, accepts);
      StatsOf(after, u) == if u == caller then Add(StatsOf(store, u), One(res.value)) else StatsOf(store, u)
  {
    StatsAppend(store, PdfController.NewRecord(caller, f, body, id, now), u);
  }

  /** A record added to the collection counts for its uploader only. */
  lemma {:induction false} StatsAppend(store: Store, p: Pdf, u: UserId)
    ensures StatsOf(store + [p], u) == if p.owner == u then Add(StatsOf(store, u), One(p)) else StatsOf(store, u)
  {
    OwnedAppend(store, p, u);
    StatsAreTally(store, u);
    StatsAreTally(store + [p], u);
    if p.owner == u {
      TallyAppend(Owned(store, u), [p]);
      assert Tally([p]) == One(p) by {
        assert [p][1..] == [];
      }
    }
  }

  // ---------------------------------------------------------------------
  // changePassword (lines 53-79)

  /** The password-hashing library. */
  datatype Crypto = Crypto(hash: (string, string) -> string, matches: (string, string) -> bool)

  /** A user with no account fails at `user.password` with 500; a missing
      current or new password is rejected by the hashing library, also
      500; a current password that does not match is 400; otherwise the
      stored hash is replaced by a hash of the new password. */
  function ChangePassword(users: Users, caller: UserId, body: Fields, crypto: Crypto, salt: string): (r: (Status, Users))
    ensures r.0 in {Ok, BadRequest, ServerError}
    ensures r.0 != Ok ==> r.1 == users
    ensures r.0 == BadRequest <==>
      caller in users && "currentPassword" in body && !crypto.matches(body["currentPassword"], users[caller].password)
    ensures r.0 == Ok <==>
      && caller in users && "currentPassword" in body && "newPassword" in body
      && crypto.matches(body["currentPassword"], users[caller].password)
    ensures r.0 == Ok ==> r.1.Keys == users.Keys
  {
    if caller !in users then (ServerError, users)
    else
      var user := users[caller];
      match Lookup(body, "currentPassword")
      case None => (ServerError, users)
      case Some(current) =>
        if !crypto.matches(current, user.password) then (BadRequest, users)
        else
          match Lookup(body, "newPassword")
          case None => (ServerError, users)
          case Some(next) => (Ok, users[caller := user.(password := crypto.hash(next, salt))])
  }

  /** With a sound library (a hash always matches the password it was made
      from), the new password is the one that matches afterwards, and only
      the caller's stored hash changed. */
  lemma {:induction false} ChangePasswordThenMatch(users: Users, caller: UserId, body: Fields, crypto: Crypto, salt: string)
    requires forall pw, s :: crypto.matches(pw, crypto.hash(pw, s))
    requires ChangePassword(users, caller, body, crypto, salt).0 == Ok
    ensures var after := ChangePassword(users, caller, body, crypto, salt).1;
      && crypto.matches(body["newPassword"], after[caller].password)
      && after[caller].(password := users[caller].password) == users[caller]
      && forall u :: u in users && u != caller ==> after[u] == users[u]
  {
  }

  /** The profile never shows the password, so changing it leaves the
      profile reply as it was. */
  lemma {:induction false} ProfileIgnoresPassword(users: Users, store: Store, caller: UserId, body: Fields,
                     crypto: Crypto, salt: string, viewer: UserId)
    ensures GetProfile(ChangePassword(users, caller, body, crypto, salt).1, store, viewer)
         == GetProfile(users, store, viewer)
  {
    var after := ChangePassword(users, caller, body, crypto, salt).1;
    assert after.Keys == users.Keys;
    if viewer in users {
      assert after[viewer].id == users[viewer].id;
      assert after[viewer].username == users[viewer].username;
      assert after[viewer].email == users[viewer].email;
    }
  }
}
